=== FILE: README.md ===
# Purdue Faculty Finder: scrape, enrich, ingest

A Dafny model of the data pipeline behind the Purdue Faculty Finder. The
pipeline has three steps:

- **Directory scraper.** Reads the ECE faculty list page and emits one stub
  record per faculty member: a display name and an absolute profile URL.
- **Profile scraper.** Reads each record's profile page, extracts the
  personal webpage link and the research-interest paragraph, and writes both
  into the record (enrichment).
- **Ingestion.** Inserts the enriched records into the `faculty` table and
  skips every record whose name is already stored.

The model works on documents that are already parsed. A page is a forest of
`Dom.Node` values: ordinary text fragments, strings of another kind, and
elements with a tag, class tokens, an optional `href` and children. The other
kinds are the string classes bs4 keeps apart: comments, doctypes,
declarations, processing instructions, and strings inside a `script`,
`style`, `template`, `rt` or `rp` element. BeautifulSoup's `find_all`, `find` and `.text`
are modelled as functions over this forest:

- `find_all` lists the matches of a pre-order walk.
- `find` returns the first match of that walk.
- `.text` of an element is the strings below it of the element's own kind,
  concatenated in order. For an ordinary element such as `p` or `strong`
  that means the ordinary text: comments and the contents of `script`,
  `style`, `template`, `rt` and `rp` are skipped.

Python's `str.strip()`, `startswith`, substring `in` and `' '.join` are in
`Strings`. Whitespace is exactly the set of characters `str.isspace` accepts.

HTTP fetching is a parameter. `Enrichment.Fetcher` maps a URL to either a
failed fetch or a parsed page. The enrichment loop gets one fetcher per
record position, because each record makes its own request: two records with
the same URL may see different outcomes. `datetime.now()` is a clock parameter indexed
by the input position. The table is a sequence of rows in insertion order.

Modules, one per file:

| module | file | contents |
|---|---|---|
| `Wrappers` | wrappers.dfy | `Option` |
| `Strings` | strings.dfy | the Python string operations |
| `Dom` | dom.dfy | the parsed document and its look-ups |
| `Search` | search.dfy | first-satisfying scans |
| `Sequences` | sequences.dfy | keep-what-succeeds loops |
| `Directory` | directory.dfy | `scrape_faculty_directory` parsing |
| `Profile` | profile.dfy | `scrape_faculty_profile` parsing |
| `Enrichment` | enrichment.dfy | both fetch steps and `enrich_faculty_data` |
| `Ingestion` | ingestion.dfy | `ingest_faculty_data` |
| `Fixtures`, `DirectoryExamples`, `ProfileExamples`, `IngestionExamples` | fixtures.dfy, directory_examples.dfy, profile_examples.dfy, ingestion_examples.dfy | the repository's unit-test pages and inputs, written as parsed trees and values |

Three behaviours of the code that are easy to miss:

- **Duplicate names within one batch are all stored.** The session is built
  with `autoflush=False` (backend/db/database.py:12), so the existence query
  at backend/data_ingestion.py:28 does not see rows staged earlier in the
  same batch. `IngestionExamples.InBatchDuplicate` shows two rows added for
  a batch that names the same new faculty member twice. Duplicates are
  skipped only across calls (`Ingestion.IngestTwice`).
- **A comment directly inside the profile anchor becomes part of the name.**
  bs4's `Comment` is a `str`, so the test at backend/scraper.py:69 accepts
  it like any other string child; `Directory.NamePart` does the same. A
  comment inside the `strong` element is skipped, because `.text` skips it.
- **A page without faculty containers yields an empty list.** The code logs
  an error and returns `[]` (backend/scraper.py:46-48); the model returns
  no records.

## Model

| member | source | states |
|---|---|---|
| Strings.IsSpace | backend/scraper.py:70-74 | `str.isspace` for one character, the set `str.strip()` removes: defined by a table of code-point ranges |
| Strings.IsSpaceChars | backend/scraper.py:70-74 | the range table accepts exactly space, `\t` to `\r`, U+1C to U+1F, U+85, U+A0, U+1680, U+2000 to U+200A, U+2028, U+2029, U+202F, U+205F and U+3000 |
| Strings.Strip | backend/scraper.py:70-74 | `str.strip()`: the result has no leading or trailing whitespace, is no longer than the input, and is empty exactly when the input is all whitespace |
| Strings.StripIsStripOf | backend/scraper.py:70-74 | the stripped string is the input with some whitespace prefix and some whitespace suffix removed, and nothing else |
| Strings.StripUnique | backend/scraper.py:147 | however a string is split into whitespace, a middle without surrounding whitespace, and whitespace, stripping yields exactly that middle; the inner whitespace of the paragraph is kept as authored |
| Strings.StripOfStripped | backend/scraper.py:74 | a string without surrounding whitespace is left unchanged by stripping |
| Strings.StripIdempotent | backend/scraper.py:74 | stripping twice is the same as stripping once |
| Strings.JoinSpaces | backend/scraper.py:74 | `' '.join`: the joined string starts with the first part and ends with the last |
| Strings.JoinSpacesBlank | backend/scraper.py:74 | the joined string is all whitespace exactly when every part is |
| Strings.StartsWith | backend/scraper.py:63 | `href.startswith('/')`: the prefix fits and the string begins with it |
| Strings.StartsWithConcat | backend/scraper.py:63 | a string starts with `p` exactly when it is `p` followed by the rest; `p + t` always starts with `p` |
| Strings.Contains | backend/scraper.py:136 | `'Webpage:' in text`: the needle occurs at some position of the haystack |
| Strings.ContainsInfix | backend/scraper.py:136 | the needle is found in any text that has it somewhere inside |
| Strings.MissingCharNotContained | backend/scraper.py:136 | the `in` test fails when the needle holds a character the haystack lacks |
| Dom.FirstMatchUnique | backend/scraper.py:56 | a forest has at most one earliest match for a query, so `find` has one answer |
| Dom.FindAll | backend/scraper.py:44 | `find_all` returns exactly the matching nodes of the pre-order traversal, in that order |
| Dom.FilterMembers | backend/scraper.py:44 | a node is in the result of `find_all` exactly when it lies below the forest and matches; class matching is token membership |
| Dom.Find | backend/scraper.py:56 | a node returned by `find` matches the query |
| Dom.FindIsFirstMatch | backend/scraper.py:56 | `find` yields None exactly when nothing below matches; otherwise it yields the earliest match in document order |
| Dom.TextOf | backend/scraper.py:72 | `.text` of an element: the strings below it whose kind is the element's own, in document order; ordinary text for an ordinary element, so comments and `script`, `style`, `template`, `rt` and `rp` contents are skipped |
| Dom.OwnKind | backend/scraper.py:72 | the kind of string an element's `.text` collects is a container kind exactly when the tag is `script`, `style`, `template`, `rt` or `rp` |
| Dom.OtherStringSkipped | backend/scraper.py:136 | a string of another kind inserted anywhere among an element's children leaves the element's `.text` unchanged |
| Dom.TextIsDescendantStrings | backend/scraper.py:72 | `.text` is the concatenation of the strings of the collected kind among the nodes below, in document order |
| Search.FirstIndex | backend/scraper.py:134-141 | the scan stops at the earliest element satisfying the test; no earlier element satisfies it |
| Sequences.FilterMapAll | backend/scraper.py:53-93 | a property every produced record has holds for every element of the output list |
| Sequences.FilterMapAppend | backend/scraper.py:53-93 | the output list follows input order: two runs of input give the two outputs concatenated |
| Sequences.FilterMapKeepsAll | backend/scraper.py:53-93 | when no element is skipped there is one output per input, in the same positions |
| Directory.ResolveUrl | backend/scraper.py:63 | the URL is `BASE_URL + href` exactly when the href starts with `/`, and the href unchanged otherwise; it always ends with the href and never starts with `/` |
| Directory.NameParts | backend/scraper.py:67-72 | the fragment list of the anchor's direct children, one per string or `strong` child in order; never longer than the children |
| Directory.NamePart | backend/scraper.py:68-72 | a direct child of the anchor contributes a fragment exactly when it is a string of any kind (each is a `str`, comments included) or a `strong` element; a string gives itself stripped, and no fragment has surrounding whitespace |
| Directory.NamePartsAppend | backend/scraper.py:68-72 | the fragments follow the order of the anchor's children |
| Directory.NamePartsStripped | backend/scraper.py:70-72 | every fragment has had its surrounding whitespace removed |
| Directory.ComposeName | backend/scraper.py:67-74 | the name has no surrounding whitespace, and it is empty exactly when every fragment is empty |
| Directory.OtherTagsIgnored | backend/scraper.py:68-72 | inserting a child element other than `strong` anywhere among the anchor's children leaves the name unchanged |
| Directory.ComposeNameWithoutBlanks | backend/scraper.py:74 | when no fragment is empty, the name is exactly the fragments separated by single spaces |
| Directory.JoinedPartsStripped | backend/scraper.py:74 | joining non-empty fragments that have no surrounding whitespace gives a string without surrounding whitespace |
| Directory.ParseEntry | backend/scraper.py:56-87 | a record that is emitted has a non-empty stripped name and both optional fields None |
| Directory.ParseEntryUsesFirstLink | backend/scraper.py:56-63 | a container with no anchor carrying an `href` is skipped; an emitted record takes its URL and its name from the first such anchor in document order |
| Directory.ParseEntryOfFirstLink | backend/scraper.py:56-87 | conversely, given the first anchor with an `href`: the container yields the record of that anchor's composed name and resolved URL, and is skipped exactly when that name is empty |
| Directory.HasNamedLink | backend/scraper.py:56-78 | a container is kept when its first `href` anchor has a non-empty composed name |
| Directory.ParseContainers | backend/scraper.py:53-93 | at most one record per container; every record is a stub |
| Directory.ParseDirectory | backend/scraper.py:44-53 | at most as many records as `list-name` containers, none when there are no containers, and every record is a stub |
| Directory.ParseContainersAppend | backend/scraper.py:53-87 | records keep the document order of their containers |
| Directory.ParseContainersSingle | backend/scraper.py:56-87 | one container gives its record, or nothing when it is skipped |
| Directory.ParseContainersKeepsAll | backend/scraper.py:53-87 | when every container's first `href` anchor has a non-empty composed name, there is exactly one record per container, in document order |
| Profile.HasWebpageLabel | backend/scraper.py:135-136 | a div is labelled when the first `strong` element below it, in document order, has text containing `Webpage:`; a div with no `strong` is not labelled |
| Profile.HasWebpageLabelFirstStrong | backend/scraper.py:135-136 | only the first `strong` element in document order is read: the div is labelled exactly when that element's text contains `Webpage:` |
| Profile.NoStrongNoLabel | backend/scraper.py:135-136 | a div with no `strong` element below it is not labelled |
| Profile.LinkIn | backend/scraper.py:138-140 | the `href` of the first anchor with an `href` below the div, None when there is none |
| Profile.LinkInFirstAnchor | backend/scraper.py:138-140 | the link is None exactly when no anchor below the div has an `href`; otherwise it is the present `href` of the first such anchor |
| Profile.WebpageAmong | backend/scraper.py:134-141 | the webpage is None exactly when no div both carries the label and holds a link; otherwise it is the link of the first such div, so a labelled div without a link does not stop the scan |
| Profile.PersonalWebpage | backend/scraper.py:131-141 | the same, over all divs of the page in document order |
| Profile.ResearchInterests | backend/scraper.py:144-147 | None exactly when the page has no `p` with class token `profile-research`; otherwise a text without surrounding whitespace |
| Profile.ResearchInterestsFromFirstParagraph | backend/scraper.py:145-147 | the research text is the text of the first such paragraph in document order, with only its surrounding whitespace removed |
| Profile.ParseProfile | backend/scraper.py:128-149 | the two results are independent: each is None exactly when its own look-up finds nothing |
| Enrichment.ScrapeFacultyDirectory | backend/scraper.py:33-48 | a failed fetch of the list page gives no records; otherwise the records are the parsed stubs |
| Enrichment.ScrapeFacultyProfile | backend/scraper.py:121-149 | a failed fetch gives `(None, None)`; a value can only come from a fetched page holding a qualifying div or a research paragraph |
| Enrichment.Enrich | backend/scraper.py:170-174 | a record keeps its name and URL, and its two optional fields become exactly the profile result for its own URL |
| Enrichment.EnrichFacultyData | backend/scraper.py:163-174 | the list keeps its length and order; each record keeps name and URL and receives the profile result of its own fetch; a failed fetch affects only that record |
| Ingestion.Get | backend/data_ingestion.py:38-39 | `item.get(key)` is None when the key is absent, and the stored value otherwise |
| Ingestion.FirstByName | backend/data_ingestion.py:28 | the lookup returns a stored row with exactly that name, and None exactly when no stored row has it |
| Ingestion.NewRow | backend/data_ingestion.py:36-41 | the new row copies the name, takes `webpage_url` from `personal_webpage` and `research_interests` from `research_interests` (None when absent), and records the clock time |
| Ingestion.Staged | backend/data_ingestion.py:27-45 | the rows the loop adds to the session, in input order; never more than the items |
| Ingestion.Ingest | backend/data_ingestion.py:22-48 | the committed table is the old table, unchanged, followed by exactly `total_added` new rows |
| Ingestion.IngestFacultyData | backend/data_ingestion.py:22-49 | the loop stages one row per item whose name is not stored before the call; it counts them and commits once, giving the result of `Ingest` |
| Ingestion.CountNamePositive | backend/data_ingestion.py:28 | a name occurs in the table exactly when it is stored there |
| Ingestion.StagedPerName | backend/data_ingestion.py:28-45 | no new row for a name already stored; otherwise one new row per input item with that name, so in-batch duplicates are all added |
| Ingestion.IngestPerName | backend/data_ingestion.py:27-48 | add-if-absent per name: after the call a name occurs as often as before, plus once per input item carrying it when it was absent |
| Ingestion.IngestCoversNames | backend/data_ingestion.py:27-48 | after the call a name is stored exactly when it was stored before or some input item carries it |
| Ingestion.StagedNothingWhenAllStored | backend/data_ingestion.py:28-33 | when every input name is already stored, nothing is added |
| Ingestion.IngestTwice | backend/tests/test_data_ingestion.py:27-32 | idempotence: ingesting the same items again at any later time adds nothing and leaves the table unchanged |
| Ingestion.StagedSingle | backend/data_ingestion.py:28-45 | one item is added exactly when its name is not stored |
| Ingestion.StagedStep | backend/data_ingestion.py:27-45 | handling one more item only appends to the rows staged so far |
| Ingestion.StagedPrefix | backend/data_ingestion.py:27-48 | new rows come in input order: the rows for the first `i` items precede those of later items |
| Ingestion.StagedLast | backend/data_ingestion.py:27-45 | the last item adds its row after all earlier ones, exactly when its name is not in the committed table |
| Ingestion.StagedMembers | backend/data_ingestion.py:27-45 | a row is staged exactly when some item at position `k` has a name missing from the committed table and the row is that item's new row stamped with `clock(k)` |
| Ingestion.IngestMembers | backend/data_ingestion.py:22-48 | a row is in the committed table after the call exactly when it was there before or it is the new row of an item whose name was missing |
| Ingestion.ToItem | backend/scraper.py:80-85 | the JSON object of a pipeline record always carries a non-null name |
| Ingestion.NewRowOfEntry | backend/data_ingestion.py:36-41 | the row built from a scraped record (the dict of backend/scraper.py:80-85) keeps its name, personal webpage and research interests, and drops the profile URL |
| DirectoryExamples.DirectoryTestPage | backend/tests/test_scraper.py:21-39 | the test's page yields the single record `Hadiseh Alaeian` with its absolute profile URL kept |
| ProfileExamples.ProfilePageResult | backend/scraper.py:133-147 | on a page shaped like the tests', the link is taken exactly when the caption contains `Webpage:`, and the paragraph text exactly when the paragraph has the `profile-research` class |
| ProfileExamples.ProfileTestPage | backend/tests/test_scraper.py:41-65 | the first profile test yields the lab webpage and the paragraph text without its surrounding layout |
| ProfileExamples.MissingDataTestPage | backend/tests/test_scraper.py:67-93 | another caption and another paragraph class give `(None, None)` |
| ProfileExamples.InlineScriptSkipped | backend/scraper.py:147 | a research paragraph holding text and an inline `script` has only that text as `.text`; the script's code is skipped |
| IngestionExamples.AddsTest | backend/tests/test_data_ingestion.py:20-25 | one record into an empty table adds one row named John |
| IngestionExamples.SkipsDuplicatesTest | backend/tests/test_data_ingestion.py:27-32 | ingesting the same record twice leaves one row and adds nothing the second time |
| IngestionExamples.InBatchDuplicate | backend/data_ingestion.py:28-45 | a batch naming the same new faculty member twice adds two rows, stamped with the clock at positions 0 and 1 |

## Left out

- HTTP fetching is not modelled: the request headers, `requests.get` and `raise_for_status`. A fetch is a parameter that either fails or yields a parsed page.
- The HTML parser is left out. Pages start as parsed trees, with each string already given its bs4 class. CDATA sections are ordinary text, as `.text` treats them. Attributes other than `class` and `href` are absent.
- `.text` follows current bs4 releases, which keep the strings of `script`, `style`, `template`, `rt` and `rp` out of an enclosing element's text. Older releases that counted them are not modelled.
- Timestamped logging (`log_message`) and the JSON snapshot files are left out. They are output only.
- `load_data_from_json` and both `__main__` drivers are left out. They are file I/O and wiring.
- `time.sleep(0.5)` after every profile fetch, the last included, is left out. It affects timing only.
- The per-container `except Exception` of the directory loop is left out. No step of the modelled parse can raise: the anchor is found with `href=True`, so the `href` is present.
- The SQLAlchemy session is left out: transactions, commit failure and rollback. The table is a sequence, and the commit is taking the old table plus the staged rows.
- The surrogate `id` column is not modelled.
- `created_at` is not a real clock. It is a clock parameter indexed by input position.
- Ingestion.IngestFacultyData: requires every item to have a non-null `"name"`. In the code, `item["name"]` raises on a missing key, and the NOT NULL column rejects null at commit. Those error paths are not modelled.
- ProfileExamples.ProfileTestPage: the long research paragraph of the test is a parameter. The lemma holds for any text without surrounding whitespace, including the test's text; the literal itself is not written out.
- The read API (backend/app/router.py), authentication (backend/app/auth.py) and the front end are outside the pipeline and are not part of this model.

=== FILE: directory.dfy ===
/**
 The directory parser: turns the faculty-list page into stub records holding
 a display name and an absolute profile URL (`scrape_faculty_directory`,
 after the page has been fetched and parsed).
 */
module Directory {
  import opened Wrappers
  import opened Strings
  import opened Dom
  import opened Sequences

  /** The site origin that path-only links are resolved against. */
  const BaseUrl: string := "https://engineering.purdue.edu"

  /** `find_all('div', class_='list-name')` */
  const ListNameDiv: Query := Query("div", Some("list-name"), false)

  /** The record that flows through the pipeline: the JSON object with keys
      `name`, `profile_url`, `personal_webpage` and `research_interests`. */
  datatype FacultyEntry = FacultyEntry(
    name: string,
    profileUrl: string,
    personalWebpage: Option<string>,
    researchInterests: Option<string>)

  /** What the directory parser emits: a non-empty name without surrounding
      whitespace, and both detail fields still unset. */
  predicate IsStub(e: FacultyEntry) {
    && e.name != ""
    && Stripped(e.name)
    && e.personalWebpage.None?
    && e.researchInterests.None?
  }

  predicate AllStubs(r: seq<FacultyEntry>) {
    forall k :: 0 <= k < |r| ==> IsStub(r[k])
  }

  /** A link starting with `/` is prefixed with the site origin; anything else
      is taken as already absolute and kept verbatim. */
  function ResolveUrl(href: string): (url: string)
    ensures url == href || url == BaseUrl + href
    ensures url != href <==> StartsWith(href, "/")
    ensures EndsWith(url, href)
    ensures !StartsWith(url, "/")
  {
    if StartsWith(href, "/") then
      assert (BaseUrl + href)[0] == 'h';
      BaseUrl + href
    else href
  }

  /** Resolving an already resolved URL changes nothing. */
  lemma ResolveUrlIdempotent(href: string)
    ensures ResolveUrl(ResolveUrl(href)) == ResolveUrl(href)
  {
  }

  /** The direct children of the anchor that contribute to the name: every
      string (each string class is a `str`, comments included) and `strong`
      elements. */
  predicate IsNameBearing(n: Node) {
    !n.Elem? || n.tag == "strong"
  }

  /** The fragment a direct child of the anchor contributes to the name: a
      string node or the text of a `strong` element, stripped; None for any
      other element. */
  function NamePart(c: Node): (r: Option<string>)
    ensures r.Some? <==> IsNameBearing(c)
    ensures r.Some? ==> Stripped(r.value)
    ensures !c.Elem? ==> r == Some(Strip(c.s))
  {
    if !c.Elem? then Some(Strip(c.s))
    else if c.tag == "strong" then Some(Strip(TextOf(c)))
    else None
  }

  /** The stripped fragments of the name, one per name-bearing child, in
      document order. */
  function NameParts(contents: seq<Node>): (parts: seq<string>)
    ensures |parts| <= |contents|
  {
    FilterMap(contents, NamePart)
  }

  lemma NamePartsAppend(xs: seq<Node>, ys: seq<Node>)
    ensures NameParts(xs + ys) == NameParts(xs) + NameParts(ys)
  {
    FilterMapAppend(xs, ys, NamePart);
  }

  predicate AllStripped(parts: seq<string>) {
    forall k :: 0 <= k < |parts| ==> Stripped(parts[k])
  }

  /** Every fragment has had its surrounding whitespace removed. */
  lemma NamePartsStripped(contents: seq<Node>)
    ensures AllStripped(NameParts(contents))
  {
    FilterMapAll(contents, NamePart, Stripped);
  }

  /** Every part is the empty string. */
  predicate AllEmpty(parts: seq<string>) {
    forall k :: 0 <= k < |parts| ==> parts[k] == ""
  }

  /** No part is the empty string. */
  predicate NoneEmpty(parts: seq<string>) {
    forall k :: 0 <= k < |parts| ==> parts[k] != ""
  }

  /** The display name: the parts joined with single spaces, then stripped.
      It is empty exactly when every part is empty. */
  function ComposeName(contents: seq<Node>): (name: string)
    ensures Stripped(name)
    ensures name == "" <==> AllEmpty(NameParts(contents))
  {
    var parts := NameParts(contents);
    NamePartsStripped(contents);
    JoinSpacesBlank(parts);
    assert AllBlank(parts) <==> AllEmpty(parts) by {
      forall k | 0 <= k < |parts| && AllSpace(parts[k]) ensures parts[k] == "" {
        StrippedBlankIsEmpty(parts[k]);
      }
    }
    Strip(JoinSpaces(parts))
  }

  /** Child elements other than `strong` are ignored wherever they stand. */
  lemma OtherTagsIgnored(xs: seq<Node>, n: Node, ys: seq<Node>)
    requires !IsNameBearing(n)
    ensures ComposeName(xs + [n] + ys) == ComposeName(xs + ys)
  {
    var a, b, c := NameParts(xs), NameParts([n]), NameParts(ys);
    assert b == [] by { assert [n][1..] == []; }
    NamePartsAppend(xs + [n], ys);
    NamePartsAppend(xs, [n]);
    NamePartsAppend(xs, ys);
    assert a + b == a;
  }

  /** When no fragment is blank the final strip removes nothing: the name is
      exactly the parts separated by single spaces. */
  lemma ComposeNameWithoutBlanks(contents: seq<Node>)
    requires NoneEmpty(NameParts(contents))
    ensures ComposeName(contents) == JoinSpaces(NameParts(contents))
  {
    NamePartsStripped(contents);
    JoinedPartsStripped(NameParts(contents));
    StripOfStripped(JoinSpaces(NameParts(contents)));
  }

  /** Joining non-empty stripped parts gives a stripped string: it starts
      with the first part and ends with the last. */
  lemma JoinedPartsStripped(parts: seq<string>)
    requires AllStripped(parts) && NoneEmpty(parts)
    ensures Stripped(JoinSpaces(parts))
  {
    if |parts| > 0 {
      var j := JoinSpaces(parts);
      var first, last := parts[0], parts[|parts| - 1];
      assert Stripped(first) && first != "" && Stripped(last) && last != "";
      assert j[0] == j[..|first|][0] == first[0];
      assert j[|j| - 1] == j[|j| - |last|..][|last| - 1] == last[|last| - 1];
    }
  }

  /** One `list-name` container: the first anchor with an `href` below it
      gives the URL and the name; no anchor, or an empty name, skips it. */
  function ParseEntry(container: Node): (r: Option<FacultyEntry>)
    ensures r.Some? ==> IsStub(r.value)
  {
    match Find(Children(container), AnchorWithHref)
    case None => None
    case Some(link) =>
      var profileUrl := ResolveUrl(link.href.value);
      var fullName := ComposeName(Children(link));
      if fullName == "" then None
      else Some(FacultyEntry(fullName, profileUrl, None, None))
  }

  /** The record comes from the first anchor with an `href` in document
      order below the container; a container without such an anchor is skipped. */
  lemma ParseEntryUsesFirstLink(container: Node)
    ensures NoMatch(Descendants(Children(container)), AnchorWithHref) ==> ParseEntry(container).None?
    ensures ParseEntry(container).Some? ==>
      exists link :: IsFirstMatch(Descendants(Children(container)), AnchorWithHref, link)
        && ParseEntry(container).value.name == ComposeName(Children(link))
        && ParseEntry(container).value.profileUrl == ResolveUrl(link.href.value)
  {
    FindIsFirstMatch(Children(container), AnchorWithHref);
  }

  /** Conversely, the first anchor with an `href` decides the outcome: its
      composed name and resolved link make the record, and only an empty
      name skips the container. */
  lemma ParseEntryOfFirstLink(container: Node, link: Node)
    requires IsFirstMatch(Descendants(Children(container)), AnchorWithHref, link)
    ensures ParseEntry(container) ==
      if ComposeName(Children(link)) == "" then None
      else Some(FacultyEntry(ComposeName(Children(link)), ResolveUrl(link.href.value), None, None))
  {
    var xs := Descendants(Children(container));
    FindIsFirstMatch(Children(container), AnchorWithHref);
    var i :| 0 <= i < |xs| && xs[i] == link && NoMatch(xs[..i], AnchorWithHref);
    assert xs[i] in xs;
    FirstMatchUnique(xs, AnchorWithHref, Find(Children(container), AnchorWithHref).value, link);
  }

  /** The container has a first `href` anchor whose composed name is not empty. */
  ghost predicate HasNamedLink(container: Node) {
    exists link :: IsFirstMatch(Descendants(Children(container)), AnchorWithHref, link)
      && ComposeName(Children(link)) != ""
  }

  /** The entries of the containers that were not skipped, in order: the
      loop over the containers, where a skipped container appends nothing. */
  function ParseContainers(containers: seq<Node>): (r: seq<FacultyEntry>)
    ensures |r| <= |containers|
    ensures AllStubs(r)
  {
    FilterMapAll(containers, ParseEntry, IsStub);
    FilterMap(containers, ParseEntry)
  }

  /** `scrape_faculty_directory` on an already parsed page. A page without
      any `list-name` container yields no records. */
  function ParseDirectory(doc: seq<Node>): (r: seq<FacultyEntry>)
    ensures |r| <= |FindAll(doc, ListNameDiv)|
    ensures |FindAll(doc, ListNameDiv)| == 0 ==> r == []
    ensures AllStubs(r)
  {
    ParseContainers(FindAll(doc, ListNameDiv))
  }

  /** Records keep the document order of their containers: parsing a run of
      containers followed by another is parsing each run and concatenating. */
  lemma ParseContainersAppend(xs: seq<Node>, ys: seq<Node>)
    ensures ParseContainers(xs + ys) == ParseContainers(xs) + ParseContainers(ys)
  {
    FilterMapAppend(xs, ys, ParseEntry);
  }

  /** A single container yields its record, or nothing when it is skipped. */
  lemma ParseContainersSingle(c: Node)
    ensures ParseContainers([c]) == match ParseEntry(c) case Some(e) => [e] case None => []
  {
    FilterMapSingle(c, ParseEntry);
  }

  /** When every container has a link and a non-empty name, there is one
      record per container, in the same order. */
  lemma ParseContainersKeepsAll(containers: seq<Node>)
    requires forall j :: 0 <= j < |containers| ==> HasNamedLink(containers[j])
    ensures |ParseContainers(containers)| == |containers|
    ensures forall j :: 0 <= j < |containers| ==>
      Some(ParseContainers(containers)[j]) == ParseEntry(containers[j])
  {
    forall j | 0 <= j < |containers|
      ensures ParseEntry(containers[j]).Some?
    {
      var link :| IsFirstMatch(Descendants(Children(containers[j])), AnchorWithHref, link)
        && ComposeName(Children(link)) != "";
      ParseEntryOfFirstLink(containers[j], link);
    }
    FilterMapKeepsAll(containers, ParseEntry);
  }
}

=== FILE: directory_examples.dfy ===
/**
 The directory parser on the page of the repository's directory unit test:
 one faculty container whose link names the member with a text fragment and a
 `strong` surname, separated and surrounded by blank runs.
 */
module DirectoryExamples {
  import opened Wrappers
  import opened Strings
  import opened Dom
  import opened Directory
  import opened Fixtures

  lemma NamePartsOfText(z: string)
    ensures NameParts([Text(z)]) == [Strip(z)]
  {
    assert NameParts([]) == [];
    assert [Text(z)][1..] == [];
    assert NameParts([Text(z)]) == [Strip(z)] + NameParts([]);
  }

  lemma NamePartsOfStrongText(y: string, z: string)
    ensures NameParts([Wrap("strong", [], y), Text(z)]) == [Strip(y), Strip(z)]
  {
    NamePartsOfText(z);
    assert [Wrap("strong", [], y), Text(z)][1..] == [Text(z)];
    OrdinaryTags();
    WrapText("strong", [], y);
    assert NameParts([Wrap("strong", [], y), Text(z)]) == [Strip(y)] + NameParts([Text(z)]);
  }

  lemma NamePartsOfTextStrongText(x: string, y: string, z: string)
    ensures NameParts([Text(x), Wrap("strong", [], y), Text(z)]) == [Strip(x), Strip(y), Strip(z)]
  {
    NamePartsOfStrongText(y, z);
    assert [Text(x), Wrap("strong", [], y), Text(z)][1..] == [Wrap("strong", [], y), Text(z)];
    assert NameParts([Text(x), Wrap("strong", [], y), Text(z)]) == [Strip(x)] + NameParts([Wrap("strong", [], y), Text(z)]);
  }

  lemma JoinThree(a: string, b: string, c: string)
    ensures JoinSpaces([a, b, c]) == a + " " + (b + " " + c)
  {
    assert [a, b, c][1..] == [b, c];
    assert [b, c][1..] == [c];
    assert JoinSpaces([c]) == c;
    assert JoinSpaces([b, c]) == b + " " + c;
  }

  /** A trailing blank part leaves a trailing space, which the final strip removes. */
  lemma TrailingBlankStripped(given: string, family: string)
    requires Stripped(given) && Stripped(family) && given != "" && family != ""
    ensures Strip(given + " " + (family + " " + "")) == given + " " + family
  {
    var name := given + " " + family;
    assert given + " " + (family + " " + "") == "" + name + " ";
    assert Stripped(name) by {
      assert name[0] == given[0];
      assert name[|name| - 1] == family[|family| - 1];
    }
    StripUnique("" + name + " ", "", name, " ");
  }

  /** The shape of the repository's directory test: a given name in a text
      fragment and the family name in `strong`, all inside layout whitespace. */
  lemma GivenAndStrongFamilyParts(lead: string, given: string, gap: string, family: string, trail: string)
    requires AllSpace(lead) && AllSpace(gap) && AllSpace(trail)
    requires Stripped(given) && Stripped(family)
    ensures NameParts([Text(lead + given + gap), Wrap("strong", [], family), Text(trail)]) == [given, family, ""]
  {
    NamePartsOfTextStrongText(lead + given + gap, family, trail);
    StripUnique(lead + given + gap, lead, given, gap);
    StripOfStripped(family);
    assert Strip(trail) == "";
  }

  lemma GivenAndStrongFamily(lead: string, given: string, gap: string, family: string, trail: string)
    requires AllSpace(lead) && AllSpace(gap) && AllSpace(trail)
    requires Stripped(given) && Stripped(family) && given != "" && family != ""
    ensures ComposeName([Text(lead + given + gap), Wrap("strong", [], family), Text(trail)]) == given + " " + family
  {
    GivenAndStrongFamilyParts(lead, given, gap, family, trail);
    JoinThree(given, family, "");
    TrailingBlankStripped(given, family);
  }

  /** The profile path of the test's faculty member; the test page links
      to it absolutely. */
  const ProfilePath: string := "/ECE/People/ptProfile?resource_id=242740"
  const ProfileUrl: string := BaseUrl + ProfilePath
  const Given: string := "Hadiseh"
  const Family: string := "Alaeian"

  /** The blank run after the given name: two spaces, then the line break. */
  function Gap(): (r: string)
    ensures AllSpace(r)
  {
    AllSpaceAppend(Spaces(2), Indent(8));
    Spaces(2) + Indent(8)
  }

  function Anchor(): Node {
    Elem("a", [], Some(ProfileUrl), [Text(Indent(8) + Given + Gap()), Wrap("strong", [], Family), Text(Indent(6))])
  }

  function Container(): Node {
    Elem("div", ["col-12", "list-name"], None, [Text(Indent(6)), Anchor(), Text(Indent(4))])
  }

  /** The page of the repository's directory unit test, as `html.parser` builds it. */
  function Page(): seq<Node> {
    [Text(Indent(4)), Container(), Text(Indent(4))]
  }

  /** Nothing below the anchor is a `list-name` container. */
  lemma AnchorHoldsNoContainer()
    ensures FindAll(Anchor().children, ListNameDiv) == []
  {
    FindAllOfWrap("strong", [], Family, ListNameDiv);
    FindAllAroundText(Indent(8) + Given + Gap(), Wrap("strong", [], Family), Indent(6), ListNameDiv);
  }

  /** Nothing below the container is another `list-name` container. */
  lemma ContainerHoldsNoContainer()
    ensures FindAll(Container().children, ListNameDiv) == []
  {
    AnchorHoldsNoContainer();
    assert !Matches(Anchor(), ListNameDiv);
    FindAllAroundText(Indent(6), Anchor(), Indent(4), ListNameDiv);
  }

  lemma TestPageContainers()
    ensures FindAll(Page(), ListNameDiv) == [Container()]
  {
    ContainerHoldsNoContainer();
    assert Matches(Container(), ListNameDiv) by {
      assert Container().classes[1] == "list-name";
    }
    FindAllAroundText(Indent(4), Container(), Indent(4), ListNameDiv);
  }


  lemma TestPageLink()
    ensures Find(Children(Container()), AnchorWithHref) == Some(Anchor())
  {
    FindAllAroundText(Indent(6), Anchor(), Indent(4), AnchorWithHref);
  }

  /** The test's link is already absolute: resolving it changes nothing. */
  lemma TestUrlKept()
    ensures ResolveUrl(ProfileUrl) == ProfileUrl
  {
    assert StartsWith(ProfilePath, "/") by {
      assert ProfilePath[0] == '/';
      assert ProfilePath[..1] == [ProfilePath[0]];
    }
    ResolveUrlIdempotent(ProfilePath);
  }

  lemma TestNamesStripped()
    ensures Stripped(Given) && Stripped(Family) && Given != "" && Family != ""
  {
    assert !IsSpace('H') && !IsSpace('h') && !IsSpace('A') && !IsSpace('n');
    assert Given[0] == 'H' && Given[|Given| - 1] == 'h';
    assert Family[0] == 'A' && Family[|Family| - 1] == 'n';
  }

  lemma TestPageName()
    ensures ComposeName(Children(Anchor())) == Given + " " + Family
  {
    TestNamesStripped();
    GivenAndStrongFamily(Indent(8), Given, Gap(), Family, Indent(6));
  }

  lemma TestPageEntry()
    ensures ParseEntry(Container()) == Some(FacultyEntry(Given + " " + Family, ProfileUrl, None, None))
  {
    TestPageLink();
    TestPageName();
    TestUrlKept();
  }

  /** The directory unit test: one record, named by the text fragment and the
      `strong` surname joined with one space, with the absolute link kept. */
  lemma DirectoryTestPage()
    ensures ParseDirectory(Page()) == [FacultyEntry("Hadiseh Alaeian", ProfileUrl, None, None)]
  {
    assert Given + " " + Family == "Hadiseh Alaeian";
    TestPageContainers();
    TestPageEntry();
    ParseContainersSingle(Container());
  }
}

=== FILE: dom.dfy ===
/**
 An already-parsed HTML document, and the three BeautifulSoup look-ups the
 scraper uses: `find_all`, `find` and `.text`. A document is the sequence of
 top-level nodes of the soup; `x.find(...)` and `x.find_all(...)` search the
 descendants of `x`, which are the descendants of its children.
 */
module Dom {
  import opened Wrappers

  /** The string subclasses bs4 keeps apart from ordinary text: comments,
      doctypes, other declarations, processing instructions, and the strings
      it finds inside a `script`, `style`, `template`, `rt` or `rp` element,
      whose class is tied to that tag. */
  datatype StringKind =
    | Comment
    | Doctype
    | Declaration
    | Instruction
    | ContainerString(tag: string)

  /** The tags whose strings bs4 stores with a class of their own. */
  const StringContainers: set<string> := {"script", "style", "template", "rt", "rp"}

  /** An ordinary text fragment (`NavigableString`, or a CDATA section, which
      `.text` treats the same way), another kind of string, or an element
      with its tag name, its class tokens, its `href` attribute if present,
      and its children in document order. */
  datatype Node =
    | Text(s: string)
    | Special(s: string, kind: StringKind)
    | Elem(tag: string, classes: seq<string>, href: Option<string>, children: seq<Node>)

  function Children(n: Node): seq<Node> {
    if n.Elem? then n.children else []
  }

  /** The filter of `find_all(tag, class_=cls, href=True)`: the tag name, a
      class token that must be among the element's tokens (bs4 matches a
      single class name against each token), and whether `href` must be
      present. */
  datatype Query = Query(tag: string, cls: Option<string>, needHref: bool)

  /** `find('a', href=True)`: an anchor carrying an `href` attribute. */
  const AnchorWithHref: Query := Query("a", None, true)

  predicate Matches(n: Node, q: Query) {
    && n.Elem?
    && n.tag == q.tag
    && (q.cls.Some? ==> q.cls.value in n.classes)
    && (q.needHref ==> n.href.Some?)
  }

  /** Every node below the given forest, in document (pre-)order: each node
      comes before its own descendants, which come before its later siblings. */
  function Descendants(ns: seq<Node>): seq<Node>
  {
    if |ns| == 0 then []
    else [ns[0]] + (if ns[0].Elem? then Descendants(ns[0].children) else []) + Descendants(ns[1..])
  }

  /** The nodes of `xs` matching `q`, in the order of `xs`. */
  function Filter(xs: seq<Node>, q: Query): (r: seq<Node>)
    ensures |r| <= |xs|
  {
    if |xs| == 0 then []
    else (if Matches(xs[0], q) then [xs[0]] else []) + Filter(xs[1..], q)
  }

  lemma {:induction false} FilterAppend(xs: seq<Node>, ys: seq<Node>, q: Query)
    ensures Filter(xs + ys, q) == Filter(xs, q) + Filter(ys, q)
  {
    if |xs| > 0 {
      assert (xs + ys)[1..] == xs[1..] + ys;
      FilterAppend(xs[1..], ys, q);
    } else {
      assert xs + ys == ys;
    }
  }

  /** Filter keeps exactly the matching nodes. */
  lemma {:induction false} FilterMembers(xs: seq<Node>, q: Query)
    ensures forall n :: n in Filter(xs, q) <==> n in xs && Matches(n, q)
  {
    if |xs| > 0 {
      FilterMembers(xs[1..], q);
      assert xs == [xs[0]] + xs[1..];
    }
  }

  /** The first element of `Filter(xs, q)` is the earliest node of `xs` that matches. */
  lemma {:induction false} FilterHead(xs: seq<Node>, q: Query)
    requires |Filter(xs, q)| > 0
    ensures IsFirstMatch(xs, q, Filter(xs, q)[0])
  {
    if !Matches(xs[0], q) {
      FilterHead(xs[1..], q);
      var i :| 0 <= i < |xs[1..]| && xs[1..][i] == Filter(xs[1..], q)[0]
               && NoMatch(xs[1..][..i], q);
      assert xs[i + 1] == Filter(xs, q)[0];
      assert xs[..i + 1] == [xs[0]] + xs[1..][..i];
    } else {
      assert xs[..0] == [];
    }
  }

  /** `find_all`: walks the tree once, testing each node before its children.
      It yields exactly the matching nodes of the pre-order traversal. */
  function FindAll(ns: seq<Node>, q: Query): (r: seq<Node>)
    ensures r == Filter(Descendants(ns), q)
  {
    if |ns| == 0 then []
    else
      var here := if Matches(ns[0], q) then [ns[0]] else [];
      var below := if ns[0].Elem? then FindAll(ns[0].children, q) else [];
      var r := here + below + FindAll(ns[1..], q);
      assert r == Filter(Descendants(ns), q) by {
        FilterAppend([ns[0]] + Descendants(Children(ns[0])), Descendants(ns[1..]), q);
        FilterAppend([ns[0]], Descendants(Children(ns[0])), q);
        assert Filter([ns[0]], q) == here by { assert [ns[0]][1..] == []; }
      }
      r
  }

  /** No node of `xs` matches `q`. */
  predicate NoMatch(xs: seq<Node>, q: Query) {
    forall n :: n in xs ==> !Matches(n, q)
  }

  /** `n` is the earliest node of `xs` that matches `q`. */
  predicate IsFirstMatch(xs: seq<Node>, q: Query, n: Node) {
    && Matches(n, q)
    && exists i :: 0 <= i < |xs| && xs[i] == n && NoMatch(xs[..i], q)
  }

  /** A sequence has at most one earliest match. */
  lemma FirstMatchUnique(xs: seq<Node>, q: Query, a: Node, b: Node)
    requires IsFirstMatch(xs, q, a) && IsFirstMatch(xs, q, b)
    ensures a == b
  {
    var i :| 0 <= i < |xs| && xs[i] == a && NoMatch(xs[..i], q);
    var j :| 0 <= j < |xs| && xs[j] == b && NoMatch(xs[..j], q);
    assert forall k :: 0 <= k < i ==> xs[..i][k] == xs[k];
    assert forall k :: 0 <= k < j ==> xs[..j][k] == xs[k];
  }

  /** `find`: the first node below the forest, in document order, that
      matches; None when nothing matches. */
  function Find(ns: seq<Node>, q: Query): (r: Option<Node>)
    ensures r.Some? ==> Matches(r.value, q)
  {
    var all := FindAll(ns, q);
    FilterMembers(Descendants(ns), q);
    if |all| == 0 then None else assert all[0] in all; Some(all[0])
  }

  /** `find` yields the earliest match of the pre-order traversal, and
      None exactly when nothing below the forest matches. */
  lemma FindIsFirstMatch(ns: seq<Node>, q: Query)
    ensures Find(ns, q).None? <==> NoMatch(Descendants(ns), q)
    ensures Find(ns, q).Some? ==> IsFirstMatch(Descendants(ns), q, Find(ns, q).value)
  {
    var all := FindAll(ns, q);
    FilterMembers(Descendants(ns), q);
    if |all| > 0 {
      FilterHead(Descendants(ns), q);
      assert all[0] in all;
    }
  }

  /** The kind of string the `.text` of an element with this tag collects:
      None for ordinary text, or the tag's own container kind. */
  function OwnKind(tag: string): (k: Option<StringKind>)
    ensures k.Some? <==> tag in StringContainers
  {
    if tag in StringContainers then Some(ContainerString(tag)) else None
  }

  /** The string a single node contributes when strings of kind `want` are
      collected; elements contribute nothing by themselves. */
  function StringOf(n: Node, want: Option<StringKind>): string {
    match n
    case Text(s) => if want.None? then s else ""
    case Special(s, k) => if want == Some(k) then s else ""
    case Elem(_, _, _, _) => ""
  }

  /** `.text` (`get_text()`) of a node. For an element: the strings below it
      whose kind is the element's own, concatenated in document order, so an
      ordinary element skips comments and the contents of `script`, `style`,
      `template`, `rt` and `rp`. A string node's text is the string itself. */
  function TextOf(n: Node): string {
    if n.Elem? then TextOfAll(n.children, OwnKind(n.tag)) else n.s
  }

  /** The strings of kind `want` below a forest, in document order. */
  function TextOfAll(ns: seq<Node>, want: Option<StringKind>): string {
    if |ns| == 0 then ""
    else
      (if ns[0].Elem? then TextOfAll(ns[0].children, want) else StringOf(ns[0], want))
        + TextOfAll(ns[1..], want)
  }

  lemma {:induction false} TextOfAllAppend(xs: seq<Node>, ys: seq<Node>, want: Option<StringKind>)
    ensures TextOfAll(xs + ys, want) == TextOfAll(xs, want) + TextOfAll(ys, want)
  {
    if |xs| > 0 {
      assert (xs + ys)[1..] == xs[1..] + ys;
      TextOfAllAppend(xs[1..], ys, want);
    } else {
      assert xs + ys == ys;
    }
  }

  /** A string of another kind inserted anywhere among an element's children
      does not change the element's text. */
  lemma OtherStringSkipped(e: Node, xs: seq<Node>, ys: seq<Node>, s: string, k: StringKind)
    requires e.Elem? && OwnKind(e.tag) != Some(k)
    ensures TextOf(e.(children := xs + [Special(s, k)] + ys)) == TextOf(e.(children := xs + ys))
  {
    var n, w := Special(s, k), OwnKind(e.tag);
    assert TextOfAll([n], w) == "" by {
      assert [n][1..] == [];
    }
    TextOfAllAppend(xs + [n], ys, w);
    TextOfAllAppend(xs, [n], w);
    TextOfAllAppend(xs, ys, w);
    assert TextOf(e.(children := xs + [n] + ys)) == TextOfAll(xs + [n] + ys, w);
    assert TextOf(e.(children := xs + ys)) == TextOfAll(xs + ys, w);
  }

  /** The strings of kind `want` among `xs`, concatenated in order. */
  function ConcatTexts(xs: seq<Node>, want: Option<StringKind>): string {
    if |xs| == 0 then ""
    else StringOf(xs[0], want) + ConcatTexts(xs[1..], want)
  }

  lemma {:induction false} ConcatTextsAppend(xs: seq<Node>, ys: seq<Node>, want: Option<StringKind>)
    ensures ConcatTexts(xs + ys, want) == ConcatTexts(xs, want) + ConcatTexts(ys, want)
  {
    if |xs| > 0 {
      assert (xs + ys)[1..] == xs[1..] + ys;
      ConcatTextsAppend(xs[1..], ys, want);
    } else {
      assert xs + ys == ys;
    }
  }

  /** The text of a forest is the concatenation of the strings of the wanted
      kind among its descendants, taken in document order. */
  lemma {:induction false} TextIsDescendantStrings(ns: seq<Node>, want: Option<StringKind>)
    ensures TextOfAll(ns, want) == ConcatTexts(Descendants(ns), want)
  {
    if |ns| > 0 {
      var d0 := Descendants(Children(ns[0]));
      var rest := Descendants(ns[1..]);
      if ns[0].Elem? {
        TextIsDescendantStrings(ns[0].children, want);
      }
      TextIsDescendantStrings(ns[1..], want);
      ConcatTextsAppend([ns[0]] + d0, rest, want);
      ConcatTextsAppend([ns[0]], d0, want);
      assert [ns[0]][1..] == [];
      if !ns[0].Elem? {
        assert d0 == [];
      }
    }
  }
}

=== FILE: enrichment.dfy ===
/**
 The two fetch-and-parse steps and the enrichment loop. An HTTP fetch is a
 parameter: for a URL it yields either a failure (any `RequestException`,
 including an error status raised by `raise_for_status`) or the parsed page.
 */
module Enrichment {
  import opened Wrappers
  import opened Dom
  import opened Directory
  import opened Profile
  import opened Search

  datatype FetchResult = FetchFailed | Fetched(doc: seq<Node>)

  type Fetcher = string -> FetchResult

  /** The faculty-list address that `scrape_faculty_directory` fetches. */
  const FacultyListUrl: string := "https://engineering.purdue.edu/ECE/People/Faculty"

  /** `scrape_faculty_directory`: no records when the list page cannot be
      fetched, otherwise the records parsed from it. */
  function ScrapeFacultyDirectory(fetch: Fetcher): (r: seq<FacultyEntry>)
    ensures fetch(FacultyListUrl).FetchFailed? ==> r == []
    ensures fetch(FacultyListUrl).Fetched? ==> r == ParseDirectory(fetch(FacultyListUrl).doc)
    ensures AllStubs(r)
  {
    match fetch(FacultyListUrl)
    case FetchFailed => []
    case Fetched(doc) => ParseDirectory(doc)
  }

  /** `scrape_faculty_profile`: `(None, None)` when the page cannot be
      fetched, otherwise the two look-ups on the page. */
  function ScrapeFacultyProfile(fetch: Fetcher, url: string): (r: (Option<string>, Option<string>))
    ensures fetch(url).FetchFailed? ==> r == (None, None)
    ensures fetch(url).Fetched? ==> r == ParseProfile(fetch(url).doc)
    ensures r.0.Some? ==>
      fetch(url).Fetched? && !NoneSatisfy(FindAll(fetch(url).doc, AnyDiv), Qualifies)
    ensures r.1.Some? ==>
      fetch(url).Fetched? && !NoMatch(Descendants(fetch(url).doc), ResearchParagraph)
  {
    match fetch(url)
    case FetchFailed => (None, None)
    case Fetched(doc) => ParseProfile(doc)
  }

  /** One record after enrichment: both optional fields overwritten by the
      profile result of its own URL, everything else kept. */
  function Enrich(e: FacultyEntry, fetch: Fetcher): (r: FacultyEntry)
    ensures r.name == e.name && r.profileUrl == e.profileUrl
    ensures (r.personalWebpage, r.researchInterests) == ScrapeFacultyProfile(fetch, e.profileUrl)
  {
    var (webpage, interests) := ScrapeFacultyProfile(fetch, e.profileUrl);
    e.(personalWebpage := webpage, researchInterests := interests)
  }

  /** `enrich_faculty_data`: visits the records in order and updates each one
      in place; a failed fetch leaves that record with two None fields and
      the loop goes on. Each record's request is a separate fetch, so
      `fetches(i)` is the fetch made for the `i`-th record: two records with
      the same URL may see different outcomes. */
  method EnrichFacultyData(facultyList: seq<FacultyEntry>, fetches: nat -> Fetcher)
    returns (enriched: seq<FacultyEntry>)
    ensures |enriched| == |facultyList|
    ensures forall i :: 0 <= i < |facultyList| ==>
      enriched[i].name == facultyList[i].name && enriched[i].profileUrl == facultyList[i].profileUrl
    ensures forall i :: 0 <= i < |facultyList| ==>
      (enriched[i].personalWebpage, enriched[i].researchInterests)
        == ScrapeFacultyProfile(fetches(i), facultyList[i].profileUrl)
  {
    enriched := facultyList;
    for i := 0 to |facultyList|
      invariant |enriched| == |facultyList|
      invariant forall j :: 0 <= j < i ==> enriched[j] == Enrich(facultyList[j], fetches(j))
      invariant forall j :: i <= j < |facultyList| ==> enriched[j] == facultyList[j]
    {
      var faculty := enriched[i];
      var (webpage, interests) := ScrapeFacultyProfile(fetches(i), faculty.profileUrl);
      enriched := enriched[i := faculty.(personalWebpage := webpage, researchInterests := interests)];
    }
  }
}

=== FILE: fixtures.dfy ===
/**
 Building blocks for the parsed pages of the worked examples, and the
 unfolding facts about `find_all` on them. Pages are written the way
 `html.parser` builds them: the layout whitespace between tags becomes
 text nodes.
 */
module Fixtures {
  import opened Wrappers
  import opened Strings
  import opened Dom

  function Spaces(n: nat): (r: string)
    ensures AllSpace(r)
  {
    var r := seq(n, _ => ' ');
    assert IsSpace(' ');
    assert forall i :: 0 <= i < n ==> r[i] == ' ';
    r
  }

  /** A line break followed by `n` spaces of indentation. */
  function Indent(n: nat): (r: string)
    ensures AllSpace(r)
  {
    assert IsSpace('\n') && "\n"[0] == '\n';
    AllSpaceAppend("\n", Spaces(n));
    "\n" + Spaces(n)
  }

  /** An element holding one text node. */
  function Wrap(tag: string, classes: seq<string>, text: string): Node {
    Elem(tag, classes, None, [Text(text)])
  }

  /** The text of an ordinary element holding one text node is that text. */
  lemma WrapText(tag: string, classes: seq<string>, text: string)
    requires tag !in StringContainers
    ensures TextOf(Wrap(tag, classes, text)) == text
  {
    assert [Text(text)][1..] == [];
    assert TextOfAll([Text(text)], None) == text + TextOfAll([], None);
    assert text + "" == text;
  }

  /** `strong` and `p` keep ordinary text. */
  lemma OrdinaryTags()
    ensures "strong" !in StringContainers && "p" !in StringContainers
  {
    assert "strong"[1] == 't' && "script"[1] == 'c' && "style"[1] == 't';
  }

  lemma FindAllOfText(s: string, q: Query)
    ensures FindAll([Text(s)], q) == []
  {
    assert [Text(s)][1..] == [];
  }

  /** A wrapped text is found only if the wrapper itself matches. */
  lemma FindAllOfWrap(tag: string, classes: seq<string>, text: string, q: Query)
    ensures FindAll([Wrap(tag, classes, text)], q) ==
      if Matches(Wrap(tag, classes, text), q) then [Wrap(tag, classes, text)] else []
  {
    var w := Wrap(tag, classes, text);
    FindAllOfText(text, q);
    assert [w][1..] == [];
    assert FindAll([w], q) == (if Matches(w, q) then [w] else []) + [] + [];
  }

  /** Text nodes never match, so around one element only that element and
      what lies below it are found. */
  lemma FindAllAroundText(s1: string, e: Node, s2: string, q: Query)
    requires e.Elem?
    ensures FindAll([Text(s1), e, Text(s2)], q) == (if Matches(e, q) then [e] else []) + FindAll(e.children, q)
  {
    var here := if Matches(e, q) then [e] else [];
    FindAllOfText(s2, q);
    assert FindAll([e, Text(s2)], q) == here + FindAll(e.children, q) + FindAll([Text(s2)], q) by {
      assert [e, Text(s2)][1..] == [Text(s2)];
    }
    assert FindAll([Text(s1), e, Text(s2)], q) == [] + [] + FindAll([e, Text(s2)], q) by {
      assert [Text(s1), e, Text(s2)][1..] == [e, Text(s2)];
    }
  }

  /** The same for two elements separated by text. */
  lemma FindAllAroundTexts(s1: string, e1: Node, s2: string, e2: Node, s3: string, q: Query)
    requires e1.Elem? && e2.Elem?
    ensures FindAll([Text(s1), e1, Text(s2), e2, Text(s3)], q) ==
      ((if Matches(e1, q) then [e1] else []) + FindAll(e1.children, q))
      + ((if Matches(e2, q) then [e2] else []) + FindAll(e2.children, q))
  {
    var ns := [Text(s1), e1, Text(s2), e2, Text(s3)];
    FindAllAroundText(s2, e2, s3, q);
    assert FindAll(ns[1..], q) == (if Matches(e1, q) then [e1] else []) + FindAll(e1.children, q)
                                  + FindAll([Text(s2), e2, Text(s3)], q) by {
      assert ns[1..][1..] == [Text(s2), e2, Text(s3)];
    }
    assert FindAll(ns, q) == [] + [] + FindAll(ns[1..], q);
  }

  /** Two matching elements with nothing matching below them, separated by
      text, are found in order. */
  lemma FindAllTwoBlocks(s1: string, e1: Node, s2: string, e2: Node, s3: string, q: Query)
    requires e1.Elem? && e2.Elem? && Matches(e1, q) && Matches(e2, q)
    requires FindAll(e1.children, q) == [] && FindAll(e2.children, q) == []
    ensures FindAll([Text(s1), e1, Text(s2), e2, Text(s3)], q) == [e1, e2]
  {
    FindAllAroundTexts(s1, e1, s2, e2, s3, q);
    assert [e1] + [] == [e1] && [e2] + [] == [e2];
  }
}

=== FILE: ingestion.dfy ===
/**
 `ingest_faculty_data`: inserts the enriched records into the `faculty`
 table, skipping every record whose name is already stored, and commits
 once at the end.

 The table is a sequence of rows in insertion order. The session is built
 with `autoflush=False`, so the existence query only sees the rows that were
 committed before the call: rows staged earlier in the same batch are
 invisible to it, and two records with the same new name are both staged.
 `datetime.now()` is a clock indexed by the position of the record in the
 input.
 */
module Ingestion {
  import opened Wrappers
  import opened Directory

  type Timestamp = int

  /** One decoded JSON object: each key maps to a string, or to None for
      JSON `null`. */
  type Item = map<string, Option<string>>

  /** `item["name"]` yields a string: the key is present and not null. */
  predicate HasName(item: Item) {
    "name" in item && item["name"].Some?
  }

  predicate AllNamed(items: seq<Item>) {
    forall k :: 0 <= k < |items| ==> HasName(items[k])
  }

  function NameOf(item: Item): string
    requires HasName(item)
  {
    item["name"].value
  }

  /** `item.get(key)`: None when the key is absent or null. */
  function Get(item: Item, key: string): (r: Option<string>)
    ensures key !in item ==> r.None?
    ensures key in item ==> r == item[key]
  {
    if key in item then item[key] else None
  }

  /** A row of the `faculty` table; the surrogate `id` is not modelled. */
  datatype Row = Row(
    name: string,
    webpageUrl: Option<string>,
    researchInterests: Option<string>,
    createdAt: Timestamp)

  type Store = seq<Row>

  /** `query(Faculty).filter(Faculty.name == n).first()`: a stored row with
      that name, or None when there is none. */
  function FirstByName(store: Store, n: string): (r: Option<Row>)
    ensures r.Some? ==> r.value in store && r.value.name == n
    ensures r.None? <==> !NameIn(store, n)
  {
    if |store| == 0 then None
    else if store[0].name == n then Some(store[0])
    else
      assert forall k :: 1 <= k < |store| ==> store[k] == store[1..][k - 1];
      FirstByName(store[1..], n)
  }

  predicate NameIn(store: Store, n: string) {
    exists k :: 0 <= k < |store| && store[k].name == n
  }

  /** The new `Faculty` object for an item. */
  function NewRow(item: Item, t: Timestamp): (r: Row)
    requires HasName(item)
    ensures r.name == NameOf(item) && r.createdAt == t
    ensures r.webpageUrl == Get(item, "personal_webpage")
    ensures r.researchInterests == Get(item, "research_interests")
  {
    Row(NameOf(item), Get(item, "personal_webpage"), Get(item, "research_interests"), t)
  }

  /** The rows added to the session, in input order: one per item whose name
      the committed store lacks. */
  function Staged(store: Store, items: seq<Item>, clock: nat -> Timestamp): (r: seq<Row>)
    requires AllNamed(items)
    ensures |r| <= |items|
  {
    if |items| == 0 then []
    else
      var n := |items| - 1;
      var before := Staged(store, items[..n], clock);
      if FirstByName(store, NameOf(items[n])).Some? then before
      else before + [NewRow(items[n], clock(n))]
  }

  /** The committed table and `total_added`. */
  datatype Outcome = Outcome(store: Store, added: nat)

  function Ingest(store: Store, items: seq<Item>, clock: nat -> Timestamp): (o: Outcome)
    requires AllNamed(items)
    ensures |o.store| == |store| + o.added
    ensures o.store[..|store|] == store
  {
    var s := Staged(store, items, clock);
    assert (store + s)[..|store|] == store;
    Outcome(store + s, |s|)
  }

  /** The loop of `ingest_faculty_data`: look each name up in the committed
      table, stage a new row when it is absent, count it, and commit once. */
  method IngestFacultyData(store: Store, items: seq<Item>, clock: nat -> Timestamp)
    returns (committed: Store, totalAdded: nat)
    requires AllNamed(items)
    ensures Outcome(committed, totalAdded) == Ingest(store, items, clock)
    ensures |committed| == |store| + totalAdded
    ensures committed[..|store|] == store
  {
    var pending: seq<Row> := [];
    totalAdded := 0;
    for i := 0 to |items|
      invariant pending == Staged(store, items[..i], clock)
      invariant totalAdded == |pending|
    {
      assert items[..i + 1][..i] == items[..i];
      var existing := FirstByName(store, items[i]["name"].value);
      if existing.None? {
        pending := pending + [NewRow(items[i], clock(i))];
        totalAdded := totalAdded + 1;
      }
    }
    assert items[..|items|] == items;
    committed := store + pending;
  }

  /** How many rows carry the name. */
  function CountName(rows: seq<Row>, n: string): nat {
    if |rows| == 0 then 0
    else CountName(rows[..|rows| - 1], n) + (if rows[|rows| - 1].name == n then 1 else 0)
  }

  /** How many items carry the name. */
  function CountItems(items: seq<Item>, n: string): nat
    requires AllNamed(items)
  {
    if |items| == 0 then 0
    else CountItems(items[..|items| - 1], n) + (if NameOf(items[|items| - 1]) == n then 1 else 0)
  }

  lemma {:induction false} CountNameAppend(a: seq<Row>, b: seq<Row>, n: string)
    ensures CountName(a + b, n) == CountName(a, n) + CountName(b, n)
    decreases |b|
  {
    if |b| == 0 {
      assert a + b == a;
    } else {
      assert (a + b)[..|a + b| - 1] == a + b[..|b| - 1];
      CountNameAppend(a, b[..|b| - 1], n);
    }
  }

  /** A name is stored exactly when some row carries it. */
  lemma {:induction false} CountNamePositive(rows: seq<Row>, n: string)
    ensures CountName(rows, n) > 0 <==> NameIn(rows, n)
  {
    if |rows| > 0 {
      var init := rows[..|rows| - 1];
      CountNamePositive(init, n);
      assert forall k :: 0 <= k < |init| ==> init[k] == rows[k];
      if NameIn(rows, n) && rows[|rows| - 1].name != n {
        var k :| 0 <= k < |rows| && rows[k].name == n;
        assert init[k].name == n;
      }
    }
  }

  /** The rows staged for one name: none when the name was already stored,
      otherwise one per item carrying it. Two items with the same new name
      in one batch both become rows. */
  lemma {:induction false} StagedPerName(store: Store, items: seq<Item>, clock: nat -> Timestamp, n: string)
    requires AllNamed(items)
    ensures CountName(Staged(store, items, clock), n) == if NameIn(store, n) then 0 else CountItems(items, n)
  {
    if |items| > 0 {
      var m := |items| - 1;
      assert AllNamed(items[..m]);
      StagedPerName(store, items[..m], clock, n);
      var before := Staged(store, items[..m], clock);
      if FirstByName(store, NameOf(items[m])).None? {
        CountNameAppend(before, [NewRow(items[m], clock(m))], n);
        assert [NewRow(items[m], clock(m))][..0] == [];
      }
    }
  }

  /** Add-if-absent, per name: after the call a name occurs as often as it
      did before, plus once per input item carrying it when it was absent. */
  lemma IngestPerName(store: Store, items: seq<Item>, clock: nat -> Timestamp, n: string)
    requires AllNamed(items)
    ensures CountName(Ingest(store, items, clock).store, n)
      == CountName(store, n) + (if NameIn(store, n) then 0 else CountItems(items, n))
  {
    CountNameAppend(store, Staged(store, items, clock), n);
    StagedPerName(store, items, clock, n);
  }

  lemma {:induction false} CountItemsPositive(items: seq<Item>, k: int)
    requires AllNamed(items) && 0 <= k < |items|
    ensures CountItems(items, NameOf(items[k])) > 0
  {
    var m := |items| - 1;
    if k < m {
      assert items[..m][k] == items[k];
      assert AllNamed(items[..m]);
      CountItemsPositive(items[..m], k);
    }
  }

  /** Coverage: after the call every input name is stored, and every stored
      name was stored before or comes from the input. */
  lemma IngestCoversNames(store: Store, items: seq<Item>, clock: nat -> Timestamp, n: string)
    requires AllNamed(items)
    ensures NameIn(Ingest(store, items, clock).store, n)
      <==> NameIn(store, n) || CountItems(items, n) > 0
  {
    var after := Ingest(store, items, clock).store;
    IngestPerName(store, items, clock, n);
    CountNamePositive(after, n);
    CountNamePositive(store, n);
  }

  /** Nothing is staged when every input name is already stored. */
  lemma {:induction false} StagedNothingWhenAllStored(store: Store, items: seq<Item>, clock: nat -> Timestamp)
    requires AllNamed(items)
    requires forall k :: 0 <= k < |items| ==> NameIn(store, NameOf(items[k]))
    ensures Staged(store, items, clock) == []
  {
    if |items| > 0 {
      var m := |items| - 1;
      assert forall k :: 0 <= k < m ==> items[..m][k] == items[k];
      StagedNothingWhenAllStored(store, items[..m], clock);
    }
  }

  /** Idempotence: ingesting the same items again, at any later time, adds
      nothing and leaves the table as it is. */
  lemma IngestTwice(store: Store, items: seq<Item>, clock: nat -> Timestamp, later: nat -> Timestamp)
    requires AllNamed(items)
    ensures var first := Ingest(store, items, clock);
      Ingest(first.store, items, later) == Outcome(first.store, 0)
  {
    var first := Ingest(store, items, clock);
    forall k | 0 <= k < |items| ensures NameIn(first.store, NameOf(items[k])) {
      CountItemsPositive(items, k);
      IngestCoversNames(store, items, clock, NameOf(items[k]));
    }
    StagedNothingWhenAllStored(first.store, items, later);
    assert first.store + [] == first.store;
  }

  /** One item: it is staged exactly when its name is not stored. */
  lemma StagedSingle(store: Store, item: Item, clock: nat -> Timestamp)
    requires HasName(item)
    ensures Staged(store, [item], clock)
      == if NameIn(store, NameOf(item)) then [] else [NewRow(item, clock(0))]
  {
    assert [item][..0] == [];
  }

  lemma AllNamedPrefix(items: seq<Item>, i: nat)
    requires AllNamed(items) && i <= |items|
    ensures AllNamed(items[..i])
  {
    assert forall k :: 0 <= k < i ==> items[..i][k] == items[k];
  }

  /** Staging one more item only appends to the rows staged so far. */
  lemma StagedStep(store: Store, items: seq<Item>, clock: nat -> Timestamp)
    requires AllNamed(items) && |items| > 0
    ensures AllNamed(items[..|items| - 1])
    ensures Staged(store, items[..|items| - 1], clock) <= Staged(store, items, clock)
  {
    AllNamedPrefix(items, |items| - 1);
  }

  /** Order: the rows staged for the first `i` items come first, before
      the rows of any later item. */
  lemma {:induction false} StagedPrefix(store: Store, items: seq<Item>, i: nat, clock: nat -> Timestamp)
    requires AllNamed(items) && i <= |items|
    ensures AllNamed(items[..i])
    ensures Staged(store, items[..i], clock) <= Staged(store, items, clock)
    decreases |items|
  {
    AllNamedPrefix(items, i);
    if i < |items| {
      var m := |items| - 1;
      StagedStep(store, items, clock);
      assert items[..m][..i] == items[..i];
      StagedPrefix(store, items[..m], i, clock);
    } else {
      assert items[..i] == items;
    }
  }

  /** `r` is the new row of some item, built with that item's own fields and
      clock time, whose name the committed table lacked before the call. */
  ghost predicate IsNewRowFor(store: Store, items: seq<Item>, clock: nat -> Timestamp, r: Row)
    requires AllNamed(items)
  {
    exists k :: 0 <= k < |items| && !NameIn(store, NameOf(items[k])) && r == NewRow(items[k], clock(k))
  }

  /** Handling one more item stages its new row when its name is not stored. */
  lemma StagedLast(store: Store, items: seq<Item>, clock: nat -> Timestamp)
    requires AllNamed(items) && |items| > 0
    ensures AllNamed(items[..|items| - 1])
    ensures var m := |items| - 1;
      Staged(store, items, clock) == Staged(store, items[..m], clock)
        + (if NameIn(store, NameOf(items[m])) then [] else [NewRow(items[m], clock(m))])
  {
    AllNamedPrefix(items, |items| - 1);
  }

  lemma IsNewRowForLast(store: Store, items: seq<Item>, clock: nat -> Timestamp, r: Row)
    requires AllNamed(items) && |items| > 0
    ensures AllNamed(items[..|items| - 1])
    ensures var m := |items| - 1;
      IsNewRowFor(store, items, clock, r) <==>
        IsNewRowFor(store, items[..m], clock, r)
        || (!NameIn(store, NameOf(items[m])) && r == NewRow(items[m], clock(m)))
  {
    var m := |items| - 1;
    var init := items[..m];
    AllNamedPrefix(items, m);
    assert forall k :: 0 <= k < m ==> init[k] == items[k];
    if IsNewRowFor(store, items, clock, r) {
      var k :| 0 <= k < |items| && !NameIn(store, NameOf(items[k])) && r == NewRow(items[k], clock(k));
      if k < m {
        assert !NameIn(store, NameOf(init[k])) && r == NewRow(init[k], clock(k));
      }
    }
  }

  /** Row contents: a row is staged exactly when it is the new row of some
      item, built with that item's own fields and clock time, whose name the
      committed table lacked before the call. */
  lemma {:induction false} StagedMembers(store: Store, items: seq<Item>, clock: nat -> Timestamp, r: Row)
    requires AllNamed(items)
    ensures r in Staged(store, items, clock) <==>
      exists k :: 0 <= k < |items| && !NameIn(store, NameOf(items[k])) && r == NewRow(items[k], clock(k))
  {
    if |items| > 0 {
      var m := |items| - 1;
      StagedLast(store, items, clock);
      IsNewRowForLast(store, items, clock, r);
      StagedMembers(store, items[..m], clock, r);
    }
    assert IsNewRowFor(store, items, clock, r) <==>
      exists k :: 0 <= k < |items| && !NameIn(store, NameOf(items[k])) && r == NewRow(items[k], clock(k));
  }

  /** The committed table holds the old rows and, besides them, exactly the
      new rows of the items whose names were not stored before the call. */
  lemma IngestMembers(store: Store, items: seq<Item>, clock: nat -> Timestamp, r: Row)
    requires AllNamed(items)
    ensures r in Ingest(store, items, clock).store <==>
      r in store
      || exists k :: 0 <= k < |items| && !NameIn(store, NameOf(items[k])) && r == NewRow(items[k], clock(k))
  {
    StagedMembers(store, items, clock, r);
  }

  /** The JSON object written for a pipeline record. */
  function ToItem(e: FacultyEntry): (item: Item)
    ensures HasName(item)
  {
    map["name" := Some(e.name), "profile_url" := Some(e.profileUrl),
        "personal_webpage" := e.personalWebpage, "research_interests" := e.researchInterests]
  }

  /** A row made from a pipeline record keeps its name and both optional
      fields; the profile URL is not stored. */
  lemma NewRowOfEntry(e: FacultyEntry, t: Timestamp)
    ensures NewRow(ToItem(e), t) == Row(e.name, e.personalWebpage, e.researchInterests, t)
  {
  }
}

=== FILE: ingestion_examples.dfy ===
/**
 Ingestion on the inputs of the repository's ingestion unit tests, and on a
 batch that names the same new faculty member twice.
 */
module IngestionExamples {
  import opened Wrappers
  import opened Ingestion

  /** The record of the first ingestion test, with both optional keys. */
  const John: Item := map["name" := Some("John"), "personal_webpage" := Some("x"), "research_interests" := Some("y")]

  /** The record of the duplicate test: only the name key. */
  const JohnOnly: Item := map["name" := Some("John")]

  /** Into an empty table, the one record becomes one row named John that
      carries both optional values. */
  lemma AddsTest(clock: nat -> Timestamp)
    ensures Ingest([], [John], clock) == Outcome([Row("John", Some("x"), Some("y"), clock(0))], 1)
  {
    StagedSingle([], John, clock);
  }

  /** Absent optional keys become None columns. */
  lemma AbsentKeysTest(t: Timestamp)
    ensures NewRow(JohnOnly, t) == Row("John", None, None, t)
  {
  }

  /** Ingesting the same one-record list twice leaves one row. */
  lemma SkipsDuplicatesTest(first: nat -> Timestamp, second: nat -> Timestamp)
    ensures var once := Ingest([], [JohnOnly], first);
      var twice := Ingest(once.store, [JohnOnly], second);
      |twice.store| == 1 && twice.added == 0
  {
    StagedSingle([], JohnOnly, first);
    IngestTwice([], [JohnOnly], first, second);
  }

  /** The existence query does not see rows staged earlier in the batch, so a
      name repeated within one batch is stored twice. */
  lemma InBatchDuplicate(clock: nat -> Timestamp)
    ensures Ingest([], [JohnOnly, JohnOnly], clock).added == 2
    ensures Ingest([], [JohnOnly, JohnOnly], clock).store
      == [NewRow(JohnOnly, clock(0)), NewRow(JohnOnly, clock(1))]
  {
    assert [JohnOnly, JohnOnly][..1] == [JohnOnly];
    StagedSingle([], JohnOnly, clock);
  }
}

=== FILE: profile.dfy ===
/**
 The profile parser: the personal webpage and the research-interest text
 of one faculty profile page (`scrape_faculty_profile`, after the page has
 been fetched and parsed). The two look-ups are independent.
 */
module Profile {
  import opened Wrappers
  import opened Strings
  import opened Dom
  import opened Search

  /** `find_all('div')` */
  const AnyDiv: Query := Query("div", None, false)

  /** `find('strong')` */
  const AnyStrong: Query := Query("strong", None, false)

  /** `find('p', class_='profile-research')` */
  const ResearchParagraph: Query := Query("p", Some("profile-research"), false)

  /** The label that marks the personal-webpage block. */
  const WebpageLabel: string := "Webpage:"

  /** The first `strong` below the div has the webpage label in its text. */
  predicate HasWebpageLabel(div: Node) {
    var strong := Find(Children(div), AnyStrong);
    strong.Some? && Contains(TextOf(strong.value), WebpageLabel)
  }

  /** The `href` of the first anchor with an `href` below the div. */
  function LinkIn(div: Node): (r: Option<string>)
  {
    match Find(Children(div), AnchorWithHref)
    case None => None
    case Some(a) => a.href
  }

  /** The label test reads the first `strong` element below the div in
      document order, and only that one. */
  lemma HasWebpageLabelFirstStrong(div: Node, strong: Node)
    requires IsFirstMatch(Descendants(Children(div)), AnyStrong, strong)
    ensures HasWebpageLabel(div) <==> Contains(TextOf(strong), WebpageLabel)
  {
    var xs := Descendants(Children(div));
    FindIsFirstMatch(Children(div), AnyStrong);
    var i :| 0 <= i < |xs| && xs[i] == strong && NoMatch(xs[..i], AnyStrong);
    assert xs[i] in xs;
    FirstMatchUnique(xs, AnyStrong, Find(Children(div), AnyStrong).value, strong);
  }

  /** A div without any `strong` element below it is never labelled. */
  lemma NoStrongNoLabel(div: Node)
    requires NoMatch(Descendants(Children(div)), AnyStrong)
    ensures !HasWebpageLabel(div)
  {
    FindIsFirstMatch(Children(div), AnyStrong);
  }

  /** The link is None exactly when no anchor below the div has an `href`;
      otherwise it is the `href` of the first such anchor in document order. */
  lemma LinkInFirstAnchor(div: Node, a: Node)
    ensures LinkIn(div).None? <==> NoMatch(Descendants(Children(div)), AnchorWithHref)
    ensures IsFirstMatch(Descendants(Children(div)), AnchorWithHref, a) ==>
      LinkIn(div) == a.href && a.href.Some?
  {
    var xs := Descendants(Children(div));
    FindIsFirstMatch(Children(div), AnchorWithHref);
    if IsFirstMatch(xs, AnchorWithHref, a) {
      var i :| 0 <= i < |xs| && xs[i] == a && NoMatch(xs[..i], AnchorWithHref);
      assert xs[i] in xs;
      FirstMatchUnique(xs, AnchorWithHref, Find(Children(div), AnchorWithHref).value, a);
    }
  }

  /** A div that yields the webpage: labelled, and holding a link. */
  predicate Qualifies(div: Node) {
    HasWebpageLabel(div) && LinkIn(div).Some?
  }

  /** The scan over the divs: a labelled div without a link does not stop it;
      the first labelled div with a link gives the result. */
  function WebpageAmong(divs: seq<Node>): (r: Option<string>)
    ensures r.None? <==> NoneSatisfy(divs, Qualifies)
    ensures r.Some? ==> r == LinkIn(divs[FirstIndex(divs, Qualifies)])
  {
    if |divs| == 0 then None
    else if HasWebpageLabel(divs[0]) && LinkIn(divs[0]).Some? then
      LinkIn(divs[0])
    else
      NoneSatisfyTail(divs, Qualifies);
      WebpageAmong(divs[1..])
  }

  /** The personal webpage of a profile page: the link of the first div, in
      document order, that is labelled and holds a link; None if there is none. */
  function PersonalWebpage(doc: seq<Node>): (r: Option<string>)
    ensures r.None? <==> NoneSatisfy(FindAll(doc, AnyDiv), Qualifies)
    ensures r.Some? ==> var divs := FindAll(doc, AnyDiv);
      r == LinkIn(divs[FirstIndex(divs, Qualifies)])
  {
    WebpageAmong(FindAll(doc, AnyDiv))
  }

  /** The stripped text of the first `profile-research` paragraph, or None
      when the page has none. */
  function ResearchInterests(doc: seq<Node>): (r: Option<string>)
    ensures r.None? <==> NoMatch(Descendants(doc), ResearchParagraph)
    ensures r.Some? ==> Stripped(r.value)
  {
    FindIsFirstMatch(doc, ResearchParagraph);
    match Find(doc, ResearchParagraph)
    case None => None
    case Some(p) => Some(Strip(TextOf(p)))
  }

  /** The research text comes from the first `profile-research` paragraph in
      document order, with only surrounding whitespace removed. */
  lemma ResearchInterestsFromFirstParagraph(doc: seq<Node>)
    ensures ResearchInterests(doc).Some? ==>
      exists p :: IsFirstMatch(Descendants(doc), ResearchParagraph, p)
        && IsStripOf(TextOf(p), ResearchInterests(doc).value)
  {
    FindIsFirstMatch(doc, ResearchParagraph);
    if Find(doc, ResearchParagraph).Some? {
      StripIsStripOf(TextOf(Find(doc, ResearchParagraph).value));
    }
  }

  /** `(personal_webpage, research_interests)` of a profile page. */
  function ParseProfile(doc: seq<Node>): (r: (Option<string>, Option<string>))
    ensures r.0.None? <==> NoneSatisfy(FindAll(doc, AnyDiv), Qualifies)
    ensures r.1.None? <==> NoMatch(Descendants(doc), ResearchParagraph)
  {
    (PersonalWebpage(doc), ResearchInterests(doc))
  }
}

=== FILE: profile_examples.dfy ===
/**
 The profile parser on the pages of the repository's two profile unit tests.
 The research paragraph of the first test is a parameter: any text without
 surrounding whitespace comes back unchanged.
 */
module ProfileExamples {
  import opened Wrappers
  import opened Strings
  import opened Dom
  import opened Fixtures
  import opened Profile

  const LabWebpage: string := "https://engineering.purdue.edu/qnp"

  function WebpageDiv(caption: string, href: string): Node {
    Elem("div", [], None, [Text(Indent(8)), Wrap("strong", [], caption), Text(Indent(8)),
                           Elem("a", [], Some(href), []), Text(Indent(4))])
  }

  function ResearchDiv(pClass: string, text: string): Node {
    Elem("div", [], None, [Text(Indent(8)), Wrap("h2", [], "Research"), Text(Indent(8)),
                           Wrap("p", [pClass], Indent(12) + text + Indent(8)), Text(Indent(4))])
  }

  /** A profile page of the tests' shape: a labelled link block, then a
      research block. */
  function ProfilePage(caption: string, href: string, pClass: string, text: string): seq<Node> {
    [Text(Indent(4)), WebpageDiv(caption, href), Text("\n" + Indent(4)),
     ResearchDiv(pClass, text), Text(Indent(4))]
  }

  lemma NoDivInWebpageDiv(caption: string, href: string)
    ensures FindAll(WebpageDiv(caption, href).children, AnyDiv) == []
  {
    var s := Wrap("strong", [], caption);
    var a := Elem("a", [], Some(href), []);
    FindAllOfWrap("strong", [], caption, AnyDiv);
    assert FindAll(a.children, AnyDiv) == [];
    FindAllAroundTexts(Indent(8), s, Indent(8), a, Indent(4), AnyDiv);
  }

  lemma NoDivInResearchDiv(pClass: string, text: string)
    ensures FindAll(ResearchDiv(pClass, text).children, AnyDiv) == []
  {
    var h, p := Wrap("h2", [], "Research"), Wrap("p", [pClass], Indent(12) + text + Indent(8));
    FindAllOfWrap("h2", [], "Research", AnyDiv);
    FindAllOfWrap("p", [pClass], Indent(12) + text + Indent(8), AnyDiv);
    FindAllAroundTexts(Indent(8), h, Indent(8), p, Indent(4), AnyDiv);
  }

  /** Neither block holds a nested div: the divs of the page are the two blocks. */
  lemma PageDivs(caption: string, href: string, pClass: string, text: string)
    ensures FindAll(ProfilePage(caption, href, pClass, text), AnyDiv)
      == [WebpageDiv(caption, href), ResearchDiv(pClass, text)]
  {
    var w, r := WebpageDiv(caption, href), ResearchDiv(pClass, text);
    NoDivInWebpageDiv(caption, href);
    NoDivInResearchDiv(pClass, text);
    FindAllTwoBlocks(Indent(4), w, "\n" + Indent(4), r, Indent(4), AnyDiv);
  }

  /** In the link block, the first `strong` is the caption and the first
      anchor with an `href` is the link. */
  lemma WebpageDivParts(caption: string, href: string)
    ensures Find(Children(WebpageDiv(caption, href)), AnyStrong) == Some(Wrap("strong", [], caption))
    ensures LinkIn(WebpageDiv(caption, href)) == Some(href)
  {
    WebpageDivStrong(caption, href);
    WebpageDivAnchor(caption, href);
  }

  lemma WebpageDivStrong(caption: string, href: string)
    ensures FindAll(Children(WebpageDiv(caption, href)), AnyStrong) == [Wrap("strong", [], caption)]
  {
    var s := Wrap("strong", [], caption);
    var a := Elem("a", [], Some(href), []);
    assert FindAll(a.children, AnyStrong) == [];
    FindAllOfWrap("strong", [], caption, AnyStrong);
    FindAllAroundTexts(Indent(8), s, Indent(8), a, Indent(4), AnyStrong);
  }

  lemma WebpageDivAnchor(caption: string, href: string)
    ensures FindAll(Children(WebpageDiv(caption, href)), AnchorWithHref) == [Elem("a", [], Some(href), [])]
  {
    var s := Wrap("strong", [], caption);
    var a := Elem("a", [], Some(href), []);
    assert FindAll(a.children, AnchorWithHref) == [];
    FindAllOfWrap("strong", [], caption, AnchorWithHref);
    FindAllAroundTexts(Indent(8), s, Indent(8), a, Indent(4), AnchorWithHref);
  }

  /** The research block has no `strong`, so it never carries the label. */
  lemma ResearchDivUnlabelled(pClass: string, text: string)
    ensures !HasWebpageLabel(ResearchDiv(pClass, text))
  {
    var h, p := Wrap("h2", [], "Research"), Wrap("p", [pClass], Indent(12) + text + Indent(8));
    FindAllOfWrap("h2", [], "Research", AnyStrong);
    FindAllOfWrap("p", [pClass], Indent(12) + text + Indent(8), AnyStrong);
    FindAllAroundTexts(Indent(8), h, Indent(8), p, Indent(4), AnyStrong);
  }

  /** The link block qualifies exactly when its caption contains the label. */
  lemma WebpageDivQualifies(caption: string, href: string)
    ensures Qualifies(WebpageDiv(caption, href)) <==> Contains(caption, WebpageLabel)
  {
    WebpageDivParts(caption, href);
    OrdinaryTags();
    WrapText("strong", [], caption);
  }

  lemma NoParagraphInWebpageDiv(caption: string, href: string)
    ensures FindAll(WebpageDiv(caption, href).children, ResearchParagraph) == []
  {
    var s := Wrap("strong", [], caption);
    var a := Elem("a", [], Some(href), []);
    assert FindAll(a.children, ResearchParagraph) == [];
    FindAllOfWrap("strong", [], caption, ResearchParagraph);
    FindAllAroundTexts(Indent(8), s, Indent(8), a, Indent(4), ResearchParagraph);
  }

  lemma ParagraphInResearchDiv(pClass: string, text: string)
    ensures FindAll(ResearchDiv(pClass, text).children, ResearchParagraph)
      == if pClass == "profile-research" then [Wrap("p", [pClass], Indent(12) + text + Indent(8))] else []
  {
    var h, p := Wrap("h2", [], "Research"), Wrap("p", [pClass], Indent(12) + text + Indent(8));
    assert Matches(p, ResearchParagraph) <==> pClass == "profile-research" by {
      assert "profile-research" in [pClass] <==> pClass == "profile-research";
    }
    FindAllOfWrap("h2", [], "Research", ResearchParagraph);
    FindAllOfWrap("p", [pClass], Indent(12) + text + Indent(8), ResearchParagraph);
    FindAllAroundTexts(Indent(8), h, Indent(8), p, Indent(4), ResearchParagraph);
  }

  /** The paragraph is found exactly when it carries the research class. */
  lemma PageParagraph(caption: string, href: string, pClass: string, text: string)
    ensures Find(ProfilePage(caption, href, pClass, text), ResearchParagraph) ==
      if pClass == "profile-research" then Some(Wrap("p", [pClass], Indent(12) + text + Indent(8))) else None
  {
    NoParagraphInWebpageDiv(caption, href);
    ParagraphInResearchDiv(pClass, text);
    FindAllAroundTexts(Indent(4), WebpageDiv(caption, href), "\n" + Indent(4), ResearchDiv(pClass, text), Indent(4),
                       ResearchParagraph);
  }

  /** The paragraph's text loses only its layout whitespace when stripped. */
  lemma ParagraphText(pClass: string, text: string)
    requires Stripped(text)
    ensures Strip(TextOf(Wrap("p", [pClass], Indent(12) + text + Indent(8)))) == text
  {
    OrdinaryTags();
    WrapText("p", [pClass], Indent(12) + text + Indent(8));
    StripUnique(Indent(12) + text + Indent(8), Indent(12), text, Indent(8));
  }

  /** The webpage look-up on a page of the tests' shape: the link is taken
      when the caption holds the label. */
  lemma PageWebpage(caption: string, href: string, pClass: string, text: string)
    ensures PersonalWebpage(ProfilePage(caption, href, pClass, text)) ==
      if Contains(caption, WebpageLabel) then Some(href) else None
  {
    PageDivs(caption, href, pClass, text);
    TwoDivsWebpage(caption, href, pClass, text);
  }

  /** The scan over the page's two divs: the first decides, the second is
      never labelled. */
  lemma TwoDivsWebpage(caption: string, href: string, pClass: string, text: string)
    ensures WebpageAmong([WebpageDiv(caption, href), ResearchDiv(pClass, text)]) ==
      if Contains(caption, WebpageLabel) then Some(href) else None
  {
    var w, r := WebpageDiv(caption, href), ResearchDiv(pClass, text);
    WebpageDivQualifies(caption, href);
    WebpageDivParts(caption, href);
    ResearchDivUnlabelled(pClass, text);
    assert [w, r][1..] == [r];
    assert WebpageAmong([r]) == None by {
      assert [r][1..] == [];
    }
  }

  /** The research look-up on a page of the tests' shape: the paragraph text,
      stripped, when the paragraph has the research class. */
  lemma PageResearch(caption: string, href: string, pClass: string, text: string)
    requires pClass == "profile-research" ==> Stripped(text)
    ensures ResearchInterests(ProfilePage(caption, href, pClass, text)) ==
      if pClass == "profile-research" then Some(text) else None
  {
    PageParagraph(caption, href, pClass, text);
    if pClass == "profile-research" {
      ParagraphText(pClass, text);
    }
  }

  /** Both look-ups on a page of the tests' shape: the link is taken when
      the caption holds the label, and the paragraph text, stripped, when
      the paragraph has the research class. */
  lemma ProfilePageResult(caption: string, href: string, pClass: string, text: string)
    requires pClass == "profile-research" ==> Stripped(text)
    ensures ParseProfile(ProfilePage(caption, href, pClass, text)) ==
      (if Contains(caption, WebpageLabel) then Some(href) else None,
       if pClass == "profile-research" then Some(text) else None)
  {
    PageWebpage(caption, href, pClass, text);
    PageResearch(caption, href, pClass, text);
  }


  /** The first profile test: the labelled link and the research paragraph
      are both picked up; the paragraph loses only its surrounding layout. */
  lemma ProfileTestPage(research: string)
    requires Stripped(research)
    ensures ParseProfile(ProfilePage("Webpage:", LabWebpage, "profile-research", research))
      == (Some(LabWebpage), Some(research))
  {
    assert Contains(WebpageLabel, WebpageLabel) by {
      assert OccursAt(WebpageLabel, WebpageLabel, 0);
    }
    ProfilePageResult(WebpageLabel, LabWebpage, "profile-research", research);
  }

  /** The second profile test: another caption and another paragraph class
      give neither a webpage nor research interests. */
  lemma MissingDataTestPage()
    ensures ParseProfile(ProfilePage("Some other field:", "https://example.com", "some-other-class",
                                     "This paragraph won't be picked up because it has wrong class"))
      == (None, None)
  {
    var caption := "Some other field:";
    assert 'W' !in caption;
    MissingCharNotContained(caption, WebpageLabel, 0);
    ProfilePageResult(caption, "https://example.com", "some-other-class",
                      "This paragraph won't be picked up because it has wrong class");
  }

  /** A research paragraph with an inline script: `.text` of the paragraph
      skips the script's code, so only the paragraph's own text is kept. */
  lemma InlineScriptSkipped(z: string, code: string)
    ensures TextOf(Elem("p", ["profile-research"], None,
                        [Text(z), Elem("script", [], None, [Special(code, ContainerString("script"))])]))
      == z
  {
    OrdinaryTags();
    var sc := Elem("script", [], None, [Special(code, ContainerString("script"))]);
    assert TextOfAll(sc.children, None) == "" + TextOfAll([], None) by {
      assert sc.children[1..] == [];
    }
    assert TextOfAll([sc], None) == TextOfAll(sc.children, None) + TextOfAll([], None) by {
      assert [sc][1..] == [];
    }
    assert TextOfAll([Text(z), sc], None) == z + TextOfAll([sc], None) by {
      assert [Text(z), sc][1..] == [sc];
    }
    assert z + "" + "" == z;
  }
}

=== FILE: search.dfy ===
/**
 Linear scans for the first element of a sequence that satisfies a
 predicate. Kept generic so that proofs about the scan never look inside
 the predicate.
 */
module Search {
  /** No element of `xs` satisfies `p`. */
  predicate NoneSatisfy<T>(xs: seq<T>, p: T -> bool) {
    forall k :: 0 <= k < |xs| ==> !p(xs[k])
  }

  /** `xs[k]` is the earliest element that satisfies `p`. */
  predicate IsFirst<T>(xs: seq<T>, p: T -> bool, k: int) {
    0 <= k < |xs| && p(xs[k]) && NoneSatisfy(xs[..k], p)
  }

  lemma NoneSatisfyTail<T>(xs: seq<T>, p: T -> bool)
    requires |xs| > 0 && !p(xs[0])
    ensures NoneSatisfy(xs, p) <==> NoneSatisfy(xs[1..], p)
  {
    if NoneSatisfy(xs[1..], p) {
      forall k | 1 <= k < |xs| ensures !p(xs[k]) {
        assert xs[k] == xs[1..][k - 1];
      }
    }
  }

  /** The position of the earliest element that satisfies `p`. */
  ghost function FirstIndex<T>(xs: seq<T>, p: T -> bool): (k: int)
    requires !NoneSatisfy(xs, p)
    ensures IsFirst(xs, p, k)
  {
    if p(xs[0]) then
      assert xs[..0] == [];
      0
    else
      NoneSatisfyTail(xs, p);
      var k := FirstIndex(xs[1..], p);
      assert xs[..k + 1] == [xs[0]] + xs[1..][..k];
      assert forall j | 0 <= j < k + 1 :: xs[..k + 1][j] == xs[j];
      k + 1
  }
}

=== FILE: sequences.dfy ===
/**
 Mapping a partial step over a sequence and keeping the results that exist,
 in order: the shape of a loop that appends one result per element and
 skips an element with `continue`. Kept generic so that proofs about the
 loop never look inside the step.
 */
module Sequences {
  import opened Wrappers

  function FilterMap<T, U>(xs: seq<T>, f: T -> Option<U>): (r: seq<U>)
    ensures |r| <= |xs|
  {
    if |xs| == 0 then []
    else
      var rest := FilterMap(xs[1..], f);
      match f(xs[0])
      case None => rest
      case Some(y) => [y] + rest
  }

  /** Every kept result satisfies `p` when every result of the step does. */
  lemma {:induction false} FilterMapAll<T, U>(xs: seq<T>, f: T -> Option<U>, p: U -> bool)
    requires forall k :: 0 <= k < |xs| && f(xs[k]).Some? ==> p(f(xs[k]).value)
    ensures forall k :: 0 <= k < |FilterMap(xs, f)| ==> p(FilterMap(xs, f)[k])
  {
    if |xs| > 0 {
      var r, rest := FilterMap(xs, f), FilterMap(xs[1..], f);
      assert forall k :: 0 <= k < |xs| - 1 ==> xs[1..][k] == xs[k + 1];
      FilterMapAll(xs[1..], f, p);
      forall k | 0 <= k < |r| ensures p(r[k]) {
        if k >= |r| - |rest| {
          assert r[k] == rest[k - (|r| - |rest|)];
        }
      }
    }
  }

  /** Order: the results for a run of elements followed by another run are
      the results of each, concatenated. */
  lemma {:induction false} FilterMapAppend<T, U>(xs: seq<T>, ys: seq<T>, f: T -> Option<U>)
    ensures FilterMap(xs + ys, f) == FilterMap(xs, f) + FilterMap(ys, f)
  {
    if |xs| == 0 {
      assert xs + ys == ys;
    } else {
      assert (xs + ys)[0] == xs[0];
      assert (xs + ys)[1..] == xs[1..] + ys;
      FilterMapAppend(xs[1..], ys, f);
    }
  }

  lemma FilterMapSingle<T, U>(x: T, f: T -> Option<U>)
    ensures FilterMap([x], f) == match f(x) case Some(y) => [y] case None => []
  {
    assert [x][1..] == [];
  }

  /** When the step succeeds on every element, nothing is skipped: one result
      per element, in the same order. */
  lemma {:induction false} FilterMapKeepsAll<T, U>(xs: seq<T>, f: T -> Option<U>)
    requires forall j :: 0 <= j < |xs| ==> f(xs[j]).Some?
    ensures |FilterMap(xs, f)| == |xs|
    ensures forall j :: 0 <= j < |xs| ==> Some(FilterMap(xs, f)[j]) == f(xs[j])
  {
    if |xs| > 0 {
      var tail := xs[1..];
      assert forall j :: 0 <= j < |tail| ==> tail[j] == xs[j + 1];
      FilterMapKeepsAll(tail, f);
      var r, rest := FilterMap(xs, f), FilterMap(tail, f);
      assert r == [f(xs[0]).value] + rest;
      forall j | 0 < j < |xs| ensures Some(r[j]) == f(xs[j]) {
        assert r[j] == rest[j - 1];
      }
    }
  }
}

=== FILE: strings.dfy ===
/**
 The few Python string operations the scraper relies on: `str.strip()`,
 `str.startswith`, the `in` substring test and `' '.join`.
 Strings are sequences of Unicode scalar values; no normalisation is done.
 */
module Strings {

  /** The characters `str.isspace` accepts, as inclusive ranges: the
      characters `str.strip()` removes when called without arguments. */
  const SpaceRanges: seq<(char, char)> := [
    (' ', ' '),
    ('\t', '\r'),                   // \t \n \x0b \x0c \r
    ('\U{1C}', '\U{1F}'),           // file, group, record, unit separators
    ('\U{85}', '\U{85}'), ('\U{A0}', '\U{A0}'), ('\U{1680}', '\U{1680}'),
    ('\U{2000}', '\U{200A}'),
    ('\U{2028}', '\U{2029}'), ('\U{202F}', '\U{202F}'),
    ('\U{205F}', '\U{205F}'), ('\U{3000}', '\U{3000}')
  ]

  predicate InRanges(c: char, ranges: seq<(char, char)>) {
    |ranges| > 0 && ((ranges[0].0 <= c <= ranges[0].1) || InRanges(c, ranges[1..]))
  }

  /** Python's `str.isspace` for one character. */
  predicate IsSpace(c: char) {
    InRanges(c, SpaceRanges)
  }

  /** The whitespace table, the first four ranges. */
  lemma SpaceRangesLow(c: char)
    ensures InRanges(c, SpaceRanges) <==>
      c == ' ' || '\t' <= c <= '\r' || '\U{1C}' <= c <= '\U{1F}' || c == '\U{85}'
      || InRanges(c, SpaceRanges[4..])
  {
    var rs := SpaceRanges;
    assert rs[0] == (' ', ' ') && rs[1] == ('\t', '\r');
    assert rs[2] == ('\U{1C}', '\U{1F}') && rs[3] == ('\U{85}', '\U{85}');
    assert InRanges(c, rs) == (rs[0].0 <= c <= rs[0].1 || InRanges(c, rs[1..]));
    assert InRanges(c, rs[1..]) == (rs[1].0 <= c <= rs[1].1 || InRanges(c, rs[2..]));
    assert InRanges(c, rs[2..]) == (rs[2].0 <= c <= rs[2].1 || InRanges(c, rs[3..]));
    assert InRanges(c, rs[3..]) == (rs[3].0 <= c <= rs[3].1 || InRanges(c, SpaceRanges[4..]));
  }

  /** The whitespace table, the next four ranges. */
  lemma SpaceRangesMiddle(c: char)
    ensures InRanges(c, SpaceRanges[4..]) <==>
      c == '\U{A0}' || c == '\U{1680}' || '\U{2000}' <= c <= '\U{200A}'
      || '\U{2028}' <= c <= '\U{2029}'
      || InRanges(c, SpaceRanges[8..])
  {
    var rs := SpaceRanges[4..];
    assert rs[0] == ('\U{A0}', '\U{A0}') && rs[1] == ('\U{1680}', '\U{1680}');
    assert rs[2] == ('\U{2000}', '\U{200A}') && rs[3] == ('\U{2028}', '\U{2029}');
    assert InRanges(c, rs) == (rs[0].0 <= c <= rs[0].1 || InRanges(c, rs[1..]));
    assert InRanges(c, rs[1..]) == (rs[1].0 <= c <= rs[1].1 || InRanges(c, rs[2..]));
    assert InRanges(c, rs[2..]) == (rs[2].0 <= c <= rs[2].1 || InRanges(c, rs[3..]));
    assert InRanges(c, rs[3..]) == (rs[3].0 <= c <= rs[3].1 || InRanges(c, SpaceRanges[8..]));
  }

  /** The whitespace table, the last three ranges. */
  lemma SpaceRangesHigh(c: char)
    ensures InRanges(c, SpaceRanges[8..]) <==>
      c == '\U{202F}' || c == '\U{205F}' || c == '\U{3000}'
  {
    var rs := SpaceRanges[8..];
    assert rs[0] == ('\U{202F}', '\U{202F}') && rs[1] == ('\U{205F}', '\U{205F}');
    assert rs[2] == ('\U{3000}', '\U{3000}');
    assert InRanges(c, rs) == (rs[0].0 <= c <= rs[0].1 || InRanges(c, rs[1..]));
    assert InRanges(c, rs[1..]) == (rs[1].0 <= c <= rs[1].1 || InRanges(c, rs[2..]));
    assert InRanges(c, rs[2..]) == (rs[2].0 <= c <= rs[2].1 || InRanges(c, []));
  }

  /** The whitespace set spelled out character by character class. */
  lemma IsSpaceChars(c: char)
    ensures IsSpace(c) <==>
      || c == ' ' || '\t' <= c <= '\r' || '\U{1C}' <= c <= '\U{1F}'
      || c == '\U{85}' || c == '\U{A0}' || c == '\U{1680}'
      || '\U{2000}' <= c <= '\U{200A}' || c == '\U{2028}' || c == '\U{2029}'
      || c == '\U{202F}' || c == '\U{205F}' || c == '\U{3000}'
  {
    SpaceRangesLow(c);
    SpaceRangesMiddle(c);
    SpaceRangesHigh(c);
  }

  predicate AllSpace(s: string) {
    forall i :: 0 <= i < |s| ==> IsSpace(s[i])
  }

  /** No leading and no trailing whitespace. */
  predicate Stripped(s: string) {
    s == [] || (!IsSpace(s[0]) && !IsSpace(s[|s| - 1]))
  }

  /** `s` is `r` surrounded by whitespace: `i` whitespace characters, then `r`,
      then only whitespace up to the end. */
  predicate PaddedAt(s: string, i: nat, r: string) {
    && i + |r| <= |s|
    && s[i..i + |r|] == r
    && AllSpace(s[..i])
    && AllSpace(s[i + |r|..])
  }

  /** A stripped string made only of whitespace is empty. */
  lemma StrippedBlankIsEmpty(s: string)
    requires Stripped(s) && AllSpace(s)
    ensures s == ""
  {
  }

  /** `r` is `s` without some whitespace prefix and some whitespace suffix. */
  ghost predicate IsStripOf(s: string, r: string) {
    exists i: nat :: PaddedAt(s, i, r)
  }

  /** The end of the whitespace run that starts at `i`: the first index at or
      after `i` holding a non-space character, or `|s|`. */
  function SpaceRunEnd(s: string, i: nat): (k: nat)
    requires i <= |s|
    ensures i <= k <= |s|
    ensures forall j :: i <= j < k ==> IsSpace(s[j])
    ensures k < |s| ==> !IsSpace(s[k])
    decreases |s| - i
  {
    if i < |s| && IsSpace(s[i]) then SpaceRunEnd(s, i + 1) else i
  }

  /** The start of the whitespace run that ends at `j`, not going below `lo`. */
  function SpaceRunStart(s: string, lo: nat, j: nat): (k: nat)
    requires lo <= j <= |s|
    ensures lo <= k <= j
    ensures forall m :: k <= m < j ==> IsSpace(s[m])
    ensures k > lo ==> !IsSpace(s[k - 1])
  {
    if j > lo && IsSpace(s[j - 1]) then SpaceRunStart(s, lo, j - 1) else j
  }

  /** `str.strip()`: what is left after removing all leading whitespace
      (`str.lstrip()`) and then all trailing whitespace (`str.rstrip()`). */
  function Strip(s: string): (r: string)
    ensures Stripped(r)
    ensures |r| <= |s|
    ensures r == [] <==> AllSpace(s)
  {
    var a := SpaceRunEnd(s, 0);
    AllSpaceRun(s);
    if a == |s| then []
    else
      var b := SpaceRunStart(s, a, |s|);
      assert a < b by { assert !IsSpace(s[a]); }
      s[a..b]
  }

  /** A string is all whitespace exactly when its leading run covers it. */
  lemma AllSpaceRun(s: string)
    ensures SpaceRunEnd(s, 0) == |s| <==> AllSpace(s)
  {
    var a := SpaceRunEnd(s, 0);
    if a < |s| {
      assert !IsSpace(s[a]);
    }
  }

  /** `Strip` removes only whitespace, and only at the two ends. */
  lemma StripIsStripOf(s: string)
    ensures IsStripOf(s, Strip(s))
  {
    var a := SpaceRunEnd(s, 0);
    var b := SpaceRunStart(s, a, |s|);
    assert a < |s| ==> a < b;
    assert PaddedAt(s, a, s[a..b]);
  }

  /** The result of `Strip` is unique: any way of writing `s` as whitespace,
      a stripped middle and whitespace yields that middle. */
  lemma StripUnique(s: string, a: string, m: string, b: string)
    requires s == a + m + b
    requires AllSpace(a) && AllSpace(b) && Stripped(m)
    ensures Strip(s) == m
  {
    forall j | 0 <= j < |s| && (j < |a| || j >= |a| + |m|) ensures IsSpace(s[j]) {
      if j < |a| { assert s[j] == a[j]; } else { assert s[j] == b[j - |a| - |m|]; }
    }
    if m != [] {
      var x, y := |a|, |a| + |m|;
      assert s[x] == m[0] && s[y - 1] == m[|m| - 1];
      assert SpaceRunEnd(s, 0) == x;
      assert SpaceRunStart(s, x, |s|) == y;
      assert s[x..y] == m;
    } else {
      assert AllSpace(s);
    }
  }

  /** A string without surrounding whitespace is left as it is. */
  lemma StripOfStripped(s: string)
    requires Stripped(s)
    ensures Strip(s) == s
  {
    assert s == "" + s + "";
    StripUnique(s, "", s, "");
  }

  /** Stripping twice is stripping once. */
  lemma StripIdempotent(s: string)
    ensures Strip(Strip(s)) == Strip(s)
  {
    StripOfStripped(Strip(s));
  }

  /** `s.startswith(p)` */
  predicate StartsWith(s: string, p: string) {
    |p| <= |s| && s[..|p|] == p
  }

  /** A string starts with `p` exactly when it is `p` followed by something. */
  lemma StartsWithConcat(p: string, t: string, s: string)
    ensures StartsWith(p + t, p)
    ensures StartsWith(s, p) ==> s == p + s[|p|..]
  {
    assert (p + t)[..|p|] == p;
  }

  /** `s.endswith(p)` */
  predicate EndsWith(s: string, p: string) {
    |p| <= |s| && s[|s| - |p|..] == p
  }

  predicate OccursAt(s: string, p: string, i: nat) {
    i + |p| <= |s| && s[i..i + |p|] == p
  }

  /** Python's `p in s` for strings. */
  predicate Contains(s: string, p: string) {
    exists i: nat | i <= |s| :: OccursAt(s, p, i)
  }

  /** A string occurs in any string built around it. */
  lemma ContainsInfix(a: string, p: string, b: string)
    ensures Contains(a + p + b, p)
  {
    assert (a + p + b)[|a|..|a| + |p|] == p;
    assert OccursAt(a + p + b, p, |a|);
  }

  /** A string holding a character that `s` lacks does not occur in `s`. */
  lemma MissingCharNotContained(s: string, p: string, k: nat)
    requires k < |p| && p[k] !in s
    ensures !Contains(s, p)
  {
    forall i: nat | i <= |s| ensures !OccursAt(s, p, i) {
      if i + |p| <= |s| {
        assert s[i..i + |p|][k] == s[i + k];
        assert s[i + k] in s;
      }
    }
  }

  lemma AllSpaceAppend(a: string, b: string)
    ensures AllSpace(a + b) <==> AllSpace(a) && AllSpace(b)
  {
    if AllSpace(a) && AllSpace(b) {
      forall k | 0 <= k < |a + b| ensures IsSpace((a + b)[k]) {
        if k >= |a| { assert (a + b)[k] == b[k - |a|]; }
      }
    }
    if AllSpace(a + b) {
      forall k | 0 <= k < |a| ensures IsSpace(a[k]) { assert (a + b)[k] == a[k]; }
      forall k | 0 <= k < |b| ensures IsSpace(b[k]) { assert (a + b)[k + |a|] == b[k]; }
    }
  }

  /** `' '.join(parts)` */
  function JoinSpaces(parts: seq<string>): (r: string)
    ensures |parts| > 0 ==> StartsWith(r, parts[0]) && EndsWith(r, parts[|parts| - 1])
  {
    if |parts| == 0 then ""
    else if |parts| == 1 then parts[0]
    else
      var rest := JoinSpaces(parts[1..]);
      var r := parts[0] + " " + rest;
      assert r[..|parts[0]|] == parts[0];
      assert r[|r| - |rest|..] == rest;
      r
  }

  /** Every part is made of whitespace only. */
  predicate AllBlank(parts: seq<string>) {
    forall k :: 0 <= k < |parts| ==> AllSpace(parts[k])
  }

  /** The joined string is all whitespace exactly when every part is. */
  lemma {:induction false} JoinSpacesBlank(parts: seq<string>)
    ensures AllSpace(JoinSpaces(parts)) <==> AllBlank(parts)
  {
    if |parts| == 1 {
      assert AllBlank(parts) <==> AllSpace(parts[0]);
    } else if |parts| > 1 {
      var rest := JoinSpaces(parts[1..]);
      JoinSpacesBlank(parts[1..]);
      AllSpaceAppend(parts[0] + " ", rest);
      AllSpaceAppend(parts[0], " ");
      assert AllSpace(" ");
      assert AllBlank(parts) <==> AllSpace(parts[0]) && AllBlank(parts[1..]) by {
        if AllSpace(parts[0]) && AllBlank(parts[1..]) {
          forall k | 1 <= k < |parts| ensures AllSpace(parts[k]) { assert parts[k] == parts[1..][k - 1]; }
        }
      }
    }
  }
}

=== FILE: wrappers.dfy ===
/** Optional values: Python's `None` versus a present value. */
module Wrappers {

  datatype Option<+T> = None | Some(value: T)
}
